=== FILE: README.md ===
# zenigata/utility, modelled in Dafny

This project models the core of the `zenigata/utility` PHP library: the
lazy configuration `Loader`, the `CacheHelper` facade over a PSR-6 pool and a
PSR-16 simple cache (through the fake backends `FakeCacheItemPool`,
`FakeCacheItem` and `FakeSimpleCache` it is exercised with), `StubRenderer`,
`ReflectionHelper::instantiate`, `FakeContainer` (PSR-11) and the two
`FakeLogger` classes (PSR-3).

Each PHP object is an immutable datatype, and each method is a function from
the old state to a result and a new state. What the operating system or the
clock decides comes in as a parameter:
- the files the loader reads are a map from path to `Missing`, `Unreadable` or `Readable(value)`;
- the renderer's read, `mkdir` and write outcomes are an `Io` record;
- the cache's current time is an integer `now`, one per call.

The building blocks are:
- a PHP array as an ordered association list (`PhpArray`), with `Get`, `Put`, `FromKeys`, `MapValues`;
- `null` as `PhpValue.Null`;
- `str_replace`, `strtoupper`, `dirname` and `%d` as functions in `PhpString`.

One module per source file:

| module | file |
|---|---|
| `ConfigLoader` | `config_loader.dfy` |
| `FakeCacheItem` | `fake_cache_item.dfy` |
| `FakeCacheItemPool` | `fake_cache_item_pool.dfy` |
| `FakeSimpleCache` | `fake_simple_cache.dfy` |
| `CacheHelper` | `cache_helper.dfy` |
| `StubRenderer` | `stub_renderer.dfy` |
| `ReflectionHelper` | `reflection_helper.dfy` |
| `FakeContainer` | `fake_container.dfy` |
| `FakeLogger` | `fake_logger.dfy` |
| `Wrappers`, `PhpValue`, `PhpArray`, `PhpString` | shared |

Some behaviours of the code come out of the proofs. They are stated as lemmas:

- **PSR-6 keeps an old expiration on a null TTL.** `CacheHelper::setItem` calls `expiresAfter` only for a non-null TTL. Rewriting a PSR-6 key without a TTL therefore keeps the expiration the stored item already had, while PSR-16 clears it (`CacheHelper.Psr6NullTtlKeepsExpiration`).
- **The backends disagree at the expiration instant.**
  - A PSR-6 item is a hit only while `expiration > now`.
  - A PSR-16 entry is stale only once `expiration < now`.
  - So a value written with TTL 0 and read at the same instant is served by PSR-16 and missed by PSR-6 (`CacheHelper.ExpirationInstantDiffers`). Time is whole seconds here; the source reads the clock afresh, at microsecond resolution, so in PHP a read even slightly later than the write already evicts the PSR-16 value.
- **A single service under the id "0" is refused.** PHP stores the key `"0"` as the integer 0, so `['0' => $svc]` is a list and `FakeContainer` refuses it (`FakeContainer.ConstructorEdgeCases`).
- **The loader accepts empty and null entries.** Its documented parameter type `array<string,string|string[]>` has no room for `null`, but the code accepts `null` entries, and empty lists too. A `null` entry is "not found" under its label (`isset` is false) and contributes no path to the unlabelled load. The model follows the code.

## Model

| member | source | states |
|---|---|---|
| ConfigLoader.Load | src/Config/Loader.php:42-49 | `load` fails exactly when resolving the label fails, and then only with "label not found" for that label. Otherwise the collection holds the resolved paths; no file is examined. |
| ConfigLoader.ResolvePaths | src/Config/Loader.php:80-99 | With a label, resolution fails exactly when every entry under that label is absent or `null` (for a table without repeated labels), and only with "label not found". Without a label it always succeeds, with one path per path of every entry. |
| ConfigLoader.LabelLookup | src/Config/Loader.php:83 | `isset($paths[$label])` is false exactly when every entry under the label is `null` or there is none. |
| ConfigLoader.Flatten | src/Config/Loader.php:90-96 | Without a label, a path is loaded exactly when some entry of the table contains it. |
| ConfigLoader.FlattenAppend | src/Config/Loader.php:90-96 | The flat resolution of two tables one after the other is the first's paths followed by the second's, so table order is kept. |
| ConfigLoader.LabelIsWindowOfFlat | src/Config/Loader.php:80-96 | The paths under any label appear, contiguously and in order, inside the flat resolution, at the offset given by the entries before it. |
| ConfigLoader.FlatLoad | src/Config/Loader.php:51-54 | Loading without a label always succeeds, and its count is the total number of paths over all entries. |
| ConfigLoader.Count | src/Config/Loader.php:51-54 | `count()` is the number of resolved paths. It takes no file system, so it examines no file. |
| ConfigLoader.CountIsCompleteTraversal | src/Config/Loader.php:51-65 | A traversal checks at most `count()` paths, and yields `count()` values exactly when it finishes without error. |
| ConfigLoader.FlatCount | src/Config/Loader.php:90-96 | The flat resolution has one path per path of every entry (a bare path counts one, `null` counts none). |
| ConfigLoader.FlatOrderExample | src/Config/Loader.php:90-96 | A single path then a two-path group flatten to the three paths in order. |
| ConfigLoader.UnknownLabelFailsFast | src/Config/Loader.php:82-86 | A label fails exactly when no entry under it is set (absent or `null`), with the message "No entries found for label: <label>". |
| ConfigLoader.LabelledLoad | src/Config/Loader.php:82-88 | A set label yields its entry as a list, so a bare path becomes a one-element list, and the count is that list's length. |
| ConfigLoader.FirstInvalid | src/Config/Loader.php:58-61 | Gives the index of the first path that is not a readable file: all paths before it are readable, and the index is the length when every path is readable. |
| ConfigLoader.Iterate | src/Config/Loader.php:56-65 | Iteration yields each file's value in path order up to the first invalid path. There it stops with that path's error, having inspected exactly the paths up to and including it. |
| ConfigLoader.ToArray | src/Config/Loader.php:67-70 | `toArray` succeeds exactly when every path is a readable file, giving one value per path in order (as many as `count`). Otherwise it fails naming the first invalid path. |
| ConfigLoader.Materialize | src/Config/Loader.php:56-70 | The loop that drives the generator to its end computes exactly `toArray`. |
| ConfigLoader.PartialTraversal | src/Config/Loader.php:56-65 | Iterating a prefix inspects no path beyond it, and what it yields is a prefix of the full iteration. A failure inside the prefix is the whole iteration's outcome. |
| ConfigLoader.FirstInvalidPrefix | src/Config/Loader.php:58-61 | Checking only the first `n` paths finds the same first invalid path when it lies among them, and none otherwise. |
| ConfigLoader.TraversalReadsOnlyCheckedPaths | src/Config/Loader.php:56-65 | Iteration depends only on the files it inspects: two file systems that agree on those paths give the same run. |
| ConfigLoader.NoMemoization | src/Config/Loader.php:56-70 | Nothing is cached: when the file at one position differs between two `toArray()` calls, both successful calls return `count()` values that differ there, and the call made while that file is unreadable fails. |
| FakeCacheItem.Fresh | tests/FakeCacheItem.php:25-30 | A new item carries its key, a `null` value, no hit flag and no expiration, and is never a hit. |
| FakeCacheItem.GetKey | tests/FakeCacheItem.php:35-38 | `getKey()` is the key the item was built with; `Set`, `ExpiresAt` and `ExpiresAfter` state that they keep it. |
| FakeCacheItem.Get | tests/FakeCacheItem.php:43-46 | `get()` is the stored value, hit or not; `Set` states what it becomes. |
| FakeCacheItem.IsHit | tests/FakeCacheItem.php:51-62 | `isHit()` is the hit flag with an expiration that is absent or strictly after `now`; `Fresh`, `Set`, `ExpiresAt` and `ExpiresAfter` state when it holds. |
| FakeCacheItem.Set | tests/FakeCacheItem.php:67-73 | `set` keeps the key, stores the value and marks a hit, which lasts while the current expiration is ahead. |
| FakeCacheItem.ExpiresAt | tests/FakeCacheItem.php:78-83 | `expiresAt` keeps key, value and hit flag and stores the given expiration as is; the item is then a hit exactly when flagged and strictly before the new expiration, or forever for `null`. |
| FakeCacheItem.ExpiresAfter | tests/FakeCacheItem.php:88-99 | `expiresAfter` keeps key, value and hit flag. `expiresAfter(null)` removes the expiration; `expiresAfter(n)` stores `now + n`, so the item is a hit exactly before then. |
| FakeCacheItem.SetThenExpiresAfter | tests/FakeCacheItem.php:67-99 | A fresh item set to `v` with TTL `n` returns `v` and is a hit at `later` exactly when `later < now + n`. |
| FakeCacheItemPool.Empty | tests/FakeCacheItemPool.php:22-29 | A new pool has no item and an empty queue, and satisfies the pool invariant. |
| FakeCacheItemPool.GetItem | tests/FakeCacheItemPool.php:34-37 | Returns the stored item, or a fresh miss with the requested key. |
| FakeCacheItemPool.GetItems | tests/FakeCacheItemPool.php:42-51 | One item per distinct requested key, in first-request order, each equal to `getItem` of that key. |
| FakeCacheItemPool.HasItem | tests/FakeCacheItemPool.php:56-59 | `hasItem` is true exactly when an item is stored under the key and it is a hit; the fresh item for a missing key never is. |
| FakeCacheItemPool.Clear | tests/FakeCacheItemPool.php:66-71 | After `clear` no committed item is left, so no key is a hit; the deferred queue is untouched. |
| FakeCacheItemPool.DeleteItem | tests/FakeCacheItemPool.php:78-83 | Removes exactly that key and changes nothing else; deleting a missing key is a no-op. |
| FakeCacheItemPool.DeleteItems | tests/FakeCacheItemPool.php:90-97 | Removes exactly the given keys and leaves the other items and the queue unchanged. |
| FakeCacheItemPool.Save | tests/FakeCacheItemPool.php:104-109 | Stores the item under its own key and leaves every other key and the queue unchanged. |
| FakeCacheItemPool.SaveDeferred | tests/FakeCacheItemPool.php:116-121 | Queues the item under its key, replacing an earlier queued one. Other queued keys and the committed items are unchanged. |
| FakeCacheItemPool.Commit | tests/FakeCacheItemPool.php:128-136 | `commit` empties the queue. |
| FakeCacheItemPool.QueuedMap | tests/FakeCacheItemPool.php:128-136 | The queued items, as a map, have exactly the queue's keys. |
| FakeCacheItemPool.QueuedMapTail | tests/FakeCacheItemPool.php:128-136 | In a well-formed queue the head key is not queued again, and the map is the tail's map updated with the head. |
| FakeCacheItemPool.CommitSavesQueue | tests/FakeCacheItemPool.php:128-136 | After `commit` the stored items are the old ones overridden by every queued item, and the pool invariant holds. |
| FakeCacheItemPool.SaveAllIsUnion | tests/FakeCacheItemPool.php:128-136 | Saving the queue in order gives the committed items overridden by the queue read as a map. |
| FakeCacheItemPool.OperationsPreserveValid | tests/FakeCacheItemPool.php:66-121 | `save`, `saveDeferred`, `deleteItem`, `deleteItems` and `clear` keep every item under its own key and the queue free of duplicate keys. |
| FakeSimpleCache.Empty | tests/FakeSimpleCache.php:34 | The empty cache serves nothing at any time. |
| FakeSimpleCache.NormalizeTtl | tests/FakeSimpleCache.php:157-174 | A `null` TTL means no expiration; an integer TTL expires exactly `ttl` seconds after `now`. |
| FakeSimpleCache.Get | tests/FakeSimpleCache.php:37-51 | Returns the live value or the default. A stale requested key is removed; otherwise the cache is unchanged. Nothing served changes. |
| FakeSimpleCache.Has | tests/FakeSimpleCache.php:135-149 | `has` is true exactly when the key is live, with the same eviction as `get`. |
| FakeSimpleCache.Set | tests/FakeSimpleCache.php:58-64 | Stores the value with the normalised expiration under the key; the other keys are unchanged. |
| FakeSimpleCache.Delete | tests/FakeSimpleCache.php:71-76 | Removes exactly that key. |
| FakeSimpleCache.Clear | tests/FakeSimpleCache.php:83-88 | The store is empty afterwards, so nothing is served at any time. |
| FakeSimpleCache.GetMultiple | tests/FakeSimpleCache.php:93-102 | One answer per distinct key, each what `get` gives for it; nothing served changes, and exactly the requested keys whose entries are stale are evicted. |
| FakeSimpleCache.SetMultiple | tests/FakeSimpleCache.php:109-116 | Afterwards the keys are the old keys plus every key of the batch, and a key outside the batch keeps its entry; `FakeSimpleCache.SetMultipleLastWriteWins` gives what each batch key holds. |
| FakeSimpleCache.DeleteMultiple | tests/FakeSimpleCache.php:123-130 | Removes exactly the listed keys. |
| FakeSimpleCache.SetThenGet | tests/FakeSimpleCache.php:37-64 | A value set with a TTL is served until `now + ttl` inclusive, and afterwards the default is; without a TTL it is always served. |
| FakeSimpleCache.GetMultipleAnswersEachKey | tests/FakeSimpleCache.php:93-102 | The answer has no duplicate keys, lists the distinct keys in request order, and maps each to `get`'s value. |
| FakeSimpleCache.LastWrite | tests/FakeSimpleCache.php:109-116 | The last value paired with a key exists exactly when the key occurs in the batch, and comes from the last pair with that key. |
| FakeSimpleCache.SetMultipleLastWriteWins | tests/FakeSimpleCache.php:109-116 | After `setMultiple` a key holds its last value in the batch with the batch's TTL; keys not in the batch are unchanged. |
| FakeSimpleCache.DeleteRemovesFromLive | tests/FakeSimpleCache.php:71-130 | `delete` and `deleteMultiple` remove exactly the named keys from what is served. |
| CacheHelper.GetItem | src/Helper/CacheHelper.php:29-38 | Both backends return the served value or `null`, and a read does not change what is served. PSR-6 is left as it was; PSR-16 evicts the key exactly when its entry is stale. |
| CacheHelper.HasItem | src/Helper/CacheHelper.php:97-104 | True exactly when the key is served: a PSR-6 hit, or a live PSR-16 entry. |
| CacheHelper.SetItem | src/Helper/CacheHelper.php:50-69 | Afterwards the key serves the value exactly while it is alive under the backend's expiration rule. Every other key keeps its stored item or entry, served or not, and the PSR-6 deferred queue is untouched. |
| CacheHelper.DeleteItem | src/Helper/CacheHelper.php:79-87 | The key is no longer served at any time. On both backends the stored item or entry under exactly that key is removed and every other one is kept, served or not; the PSR-6 queue is untouched. |
| CacheHelper.GetItems | src/Helper/CacheHelper.php:114-128 | Returns one value per distinct key in request order, each what `getItem` returns for it; nothing served changes. On PSR-16 exactly the requested keys whose entries are stale are evicted. |
| CacheHelper.SetItems | src/Helper/CacheHelper.php:139-159 | The batch write keeps the backend's invariant and the backend kind. |
| CacheHelper.DeleteItems | src/Helper/CacheHelper.php:169-179 | Afterwards exactly the listed keys are no longer served. On both backends the stored items or entries under exactly those keys are removed and every other one is kept, served or not; the PSR-6 queue is untouched. |
| CacheHelper.Clear | src/Helper/CacheHelper.php:188-191 | Nothing is served afterwards, on either backend: the pool's items or the simple cache's entries are emptied, and the PSR-6 queue is untouched. |
| CacheHelper.GetAfterSet | src/Helper/CacheHelper.php:29-69 | Reading a key at `later` after writing it returns the value exactly while it is alive, and `null` after. |
| CacheHelper.GetAfterSetServes | src/Helper/CacheHelper.php:29-69 | A value written with a positive TTL, or with none over an item that had no expiration, is read back at once. |
| CacheHelper.ExpirationInstantDiffers | src/Helper/CacheHelper.php:29-69 | With TTL 0, PSR-6 misses the value at the write instant while PSR-16 still serves it. |
| CacheHelper.Psr6NullTtlKeepsExpiration | src/Helper/CacheHelper.php:61-68 | Rewriting a PSR-6 key with a `null` TTL keeps its old expiration, so the new value is missed there. PSR-16 still serves it. |
| CacheHelper.GetAfterDelete | src/Helper/CacheHelper.php:29-104 | After `deleteItem` the key reads as `null` and `hasItem` is false. |
| CacheHelper.HasAfterClear | src/Helper/CacheHelper.php:29-191 | After `clear` every key reads as `null` and `hasItem` is false. |
| CacheHelper.HasItemAgreesWithGetItem | src/Helper/CacheHelper.php:29-104 | `hasItem` is true exactly when `getItem` serves a stored value, and when it is false `getItem` gives `null`. |
| CacheHelper.WrittenExpirationStable | src/Helper/CacheHelper.php:50-69 | A write does not change the expiration a later write under the same TTL would give any key. |
| CacheHelper.SetItemsUnfold | src/Helper/CacheHelper.php:139-159 | `setItems` is `setItem` of the first pair followed by `setItems` of the rest. |
| CacheHelper.SetItemsLastWriteWins | src/Helper/CacheHelper.php:139-159 | After `setItems` a key serves its last value in the batch while alive; keys not in the batch are served as before. |
| StubRenderer.EnsureDirectoryExists | src/Helper/StubRenderer.php:74-89 | The steps are a non-empty prefix of check, `mkdir`, re-check. An existing readable directory is only checked. Otherwise the step succeeds exactly when the path is absent and `mkdir` creates it (or it appears anyway); then the directory qualifies. A failure changes nothing and ends with the re-check. |
| StubRenderer.DirectoryExists | src/Helper/StubRenderer.php:86-89 | `directoryExists` holds for a readable directory only; `EnsureDirectoryExists` and `ExistingDirectoryNotRecreated` state how it decides the `mkdir`. |
| StubRenderer.ReplacePlaceholders | src/Helper/StubRenderer.php:64-67 | `replacePlaceholders` is `str_replace` of the keys by the values, pair by pair; `PhpString.StrReplace` states its contract. |
| StubRenderer.Render | src/Helper/StubRenderer.php:40-59 | Render always starts with the stub check, and its last step is the one that failed or the write. It succeeds exactly when the stub is a readable file, the read and the write go through, and the destination's directory exists or can be created. On success the destination holds the stub's content with the placeholders replaced, and no path other than the destination and its directory changes. |
| StubRenderer.SuccessfulRenderSteps | src/Helper/StubRenderer.php:40-59 | When everything goes through and the directory is new, the steps are exactly check, read, replace, directory check, `mkdir`, write, and the file system gains the directory and the rendered file. |
| StubRenderer.FailureWritesNothing | src/Helper/StubRenderer.php:40-59 | A failed render leaves every path except the destination's directory as it was. |
| StubRenderer.MissingStubStopsAtOnce | src/Helper/StubRenderer.php:42-44 | A stub that is not a readable file fails at once with "Stub file '<stub>' does not exist or is not a readable.", touching nothing. |
| StubRenderer.StepsInOrder | src/Helper/StubRenderer.php:40-81 | The steps taken follow the fixed order check, read, replace, directory, write, so a failure prevents every later step. |
| StubRenderer.IncreasingAppend | src/Helper/StubRenderer.php:40-59 | Two ordered runs of steps, the second entirely later, form an ordered run. |
| StubRenderer.ExistingDirectoryNotRecreated | src/Helper/StubRenderer.php:76 | When the directory exists and is readable, `mkdir` is not called. |
| StubRenderer.DirectoryFailureWritesNothing | src/Helper/StubRenderer.php:78-80 | A refused `mkdir` on a directory that still does not qualify raises "Unable to create directory" and writes nothing. |
| StubRenderer.WriteFailureReported | src/Helper/StubRenderer.php:55-57 | A failed write raises "Failed to write to file: <destination>" and leaves the file system unchanged. |
| StubRenderer.EmptyPlaceholdersCopyVerbatim | src/Helper/StubRenderer.php:64-67 | With no placeholders the stub is copied verbatim. |
| StubRenderer.AbsentPlaceholderIsNoOp | src/Helper/StubRenderer.php:64-67 | A placeholder the content does not contain leaves the content unchanged. |
| PhpString.ReplaceAllAbsent | src/Helper/StubRenderer.php:64-67 | Replacing a string that does not occur changes nothing. |
| PhpString.ReplaceAll | src/Helper/StubRenderer.php:66 | Replacing one search string: an empty search string changes nothing, and a replacement as long as the search string keeps the length. |
| PhpString.StrReplace | src/Helper/StubRenderer.php:66 | Replacing by pairs keeps the length when every replacement is as long as its search string, and changes nothing when every pair maps a string to itself. |
| PhpString.ReplaceAllLeftmost | src/Helper/StubRenderer.php:64-67 | The leftmost occurrence is replaced, and scanning resumes after it. |
| PhpString.ReplaceAllSelf | src/Helper/StubRenderer.php:64-67 | Replacing a string by itself is the identity. |
| PhpString.StrReplaceSequential | src/Helper/StubRenderer.php:64-67 | `str_replace` with arrays applies the pairs one after another, each over the previous result. |
| PhpString.Dirname | src/Helper/StubRenderer.php:54 | `dirname` of a path without a slash is "." and of a path of slashes is "/". Otherwise it is a prefix of the path without trailing slashes, followed there by a run of slashes and then the last component, which has none; it ends in a slash only when it is "/". |
| PhpString.TrimSlashes | src/Helper/StubRenderer.php:54 | `dirname`'s first cut: a prefix without a trailing slash, with only slashes removed. |
| PhpString.TrimName | src/Helper/StubRenderer.php:54 | `dirname`'s second cut: a prefix ending in a slash (or empty, only when there is no slash), with only non-slash characters removed. |
| PhpString.Upper | src/Psr/FakeLogger.php:41 | `strtoupper` keeps the length, maps each character on its own, and leaves no lower-case ASCII letter. |
| ReflectionHelper.InstantiateAsWritten | src/Helper/ReflectionHelper.php:33-63 | As written, a success needs an existing, instantiable class that has a constructor requiring no parameter. |
| ReflectionHelper.Instantiate | src/Helper/ReflectionHelper.php:33-63 | Instantiation succeeds exactly for an existing, instantiable class whose constructor, if any, requires no parameter. Each failure is the first failed check, and the count is reported. |
| ReflectionHelper.AsWrittenAgreesWithConstructor | src/Helper/ReflectionHelper.php:51-56 | For a class with a constructor, the helper as written and as corrected agree. |
| ReflectionHelper.AsWrittenDiffersOnlyWithoutConstructor | src/Helper/ReflectionHelper.php:51-56 | The two differ exactly on an existing, instantiable class without a constructor. |
| ReflectionHelper.ConstructorlessClassRejected | src/Helper/ReflectionHelper.php:52-54 | A concrete class with no constructor: as written, a null-call error; corrected, an instance. |
| ReflectionHelper.FixtureOutcomes | src/Helper/ReflectionHelper.php:35-62 | For the suite's fixtures: a constructor with an optional parameter instantiates; one required parameter is refused with "constructor defines 1 required parameter(s)."; an abstract class is not instantiable; the undeclared name `NonExistentClass` is not found, with its message. |
| ReflectionHelper.RequiredCountReadable | src/Helper/ReflectionHelper.php:58-62 | The refusal carries the constructor's required-parameter count, written so that reading it back gives the count. |
| FakeContainer.New | src/Psr/FakeContainer.php:36-46 | Construction fails exactly for a non-empty list, with "requires an associative array"; otherwise the entries are kept as given, the empty array included. |
| FakeContainer.Has | src/Psr/FakeContainer.php:63-66 | `has` is `isset` on the coerced key: a non-null entry; `Get`, `NullEntryIsAbsent` and `MissingIdNotFound` state its consequences. |
| FakeContainer.Get | src/Psr/FakeContainer.php:51-58 | `get` succeeds exactly when `has` holds, returning the stored value; otherwise it raises not-found for that id. |
| FakeContainer.NumericIdIsIntegerKey | src/Psr/FakeContainer.php:65 | A decimal numeral id addresses the integer key it denotes. |
| FakeContainer.LeadingDigitNonZero | src/Psr/FakeContainer.php:65 | A formatted number starts with '0' only if it is zero, so every numeral is canonical. |
| FakeContainer.RegisteredServiceServed | src/Psr/FakeContainer.php:36-66 | A non-null entry of an accepted array is reported present and served as is, under every id that addresses its key. |
| FakeContainer.NullEntryIsAbsent | src/Psr/FakeContainer.php:51-66 | A `null` entry counts as absent: `has` is false and `get` raises "Service '<id>' not found.". |
| FakeContainer.MissingIdNotFound | src/Psr/FakeContainer.php:51-66 | An id with no entry is not present and `get` fails. |
| FakeContainer.ConstructorEdgeCases | src/Psr/FakeContainer.php:38-45 | The empty array is accepted and serves nothing; a lone entry under "0" is a list and is refused. |
| FakeContainer.Fixtures | src/Psr/FakeContainer.php:36-66 | A list of two services is refused; `['foo' => 'bar']` has "foo" and serves "bar". |
| FakeContainer.StringIdsDistinct | src/Psr/FakeContainer.php:65 | Ids stored as strings address the same entry exactly when they are equal. |
| FakeLogger.Format | src/Psr/FakeLogger.php:39-44 | A line is "[" then the upper-cased level then "] ", followed by the message, a space and the encoded context. |
| FakeLogger.NewPsrLogger | src/Psr/FakeLogger.php:26 | A new logger has recorded nothing. |
| FakeLogger.NewTestLogger | tests/FakeLogger.php:26 | A new test logger has recorded nothing. |
| FakeLogger.All | src/Psr/FakeLogger.php:52-55 | `all()` returns the recorded lines; `LogPsr` and `ReplayPsrRecordsEveryCall` state their order. |
| FakeLogger.LogPsr | src/Psr/FakeLogger.php:37-55 | `log` appends exactly one line, the formatted call, and keeps the earlier lines. |
| FakeLogger.LogTest | tests/FakeLogger.php:37-45 | The test copy's `log` appends exactly one formatted line to `$output`. |
| FakeLogger.ReplayPsrRecordsEveryCall | src/Psr/FakeLogger.php:37-55 | After any sequence of calls, `all()` is the earlier lines followed by one formatted line per call, in call order. |
| FakeLogger.CopiesAgree | tests/FakeLogger.php:37-45 | The library's and the test suite's loggers record identical lines for identical calls. |
| FakeLogger.UpperLevel | src/Psr/FakeLogger.php:41 | `strtoupper` of each PSR-3 level name is its upper-case tag. |
| FakeLogger.LevelOfTagRoundTrip | src/Psr/FakeLogger.php:41 | Every PSR-3 tag reads back as its own level, and no level name contains `]`. |
| FakeLogger.ShortcutWithoutContext | src/Psr/FakeLogger.php:39-44 | A call without context is logged as "[LEVEL] message []". |
| FakeLogger.TagReadBack | src/Psr/FakeLogger.php:39-44 | The text between the brackets of a line is the upper-cased level, for any level without `]`. |
| FakeLogger.LevelRecoverable | src/Psr/FakeLogger.php:39-44 | Calls at different PSR-3 levels never produce the same line. |

## Left out

- The real file system, vfsStream, permissions and `require`: the loader's file states and values, and the renderer's read, `mkdir` and write outcomes, are inputs.
- The wall clock: each cache call takes one integer `now`; `DateInterval` TTLs and `DateTimeInterface` arguments are reduced to integer seconds. The source's clock has microsecond resolution and is read afresh on every call, so two calls in the same model second may be apart in PHP.
- The "Invalid TTL" branch of `FakeSimpleCache::normalizeTtl` cannot be reached with the parameter types it is given.
- The constant `true` returned by the fake cache mutators, since it carries no information.
- Object identity: items are values here, while PHP shares item objects. Changing an item that `getItem` returned changes the pool even without a `save`, and an item that is both queued and committed is one object in both stores. The model captures neither; for `CacheHelper::setItem`, which changes the item and then saves it, the final pool is the same.
- `json_encode` of a log context is a function parameter. Only its value on the empty array ("[]") is used.
- `Stringable` messages are given as their strings. Non-string levels, which `strtoupper` rejects under strict types, are not modelled.
- PhpString.Upper: ASCII-only, as `strtoupper` is since PHP 8.2; locale-dependent case mapping is not modelled.
- PhpString.Dirname: follows the single-path algorithm of PHP's `dirname` without the Windows drive-letter rules; its "." case is stated one way only, since "./x" also gives ".".
- FakeContainer.KeyOf: treats every canonical numeral as an integer key; PHP keeps a numeral beyond the 64-bit range as a string key.
- `FakeContainer`'s `all()` and `set()`, which its test suite calls, do not exist in the class; they are not modelled.
- StubRenderer.EnsureDirectoryExists: the intermediate directories `mkdir(..., true)` creates are not modelled, only the target directory. So the frame statements of `EnsureDirectoryExists` and `FailureWritesNothing` say nothing about parent directories.
- CacheHelper.SetItems: states only invariant preservation itself; what the batch writes is stated by `CacheHelper.SetItemsLastWriteWins` and `CacheHelper.SetItemsUnfold`.
- CacheHelper.SetItemsUnfold: batch keys are strings here. PHP stores a numeric-string key such as `'1'` as the integer 1. The PSR-6 branch casts it back with `(string) $key`, but on PSR-16 `FakeSimpleCache::setMultiple` passes the integer to `set(string $key, ...)` under strict types, which raises a `TypeError`. That failure is not modelled, so the model gives both backends the same per-pair behaviour.
- ReflectionHelper.Instantiate: autoloading and the case-insensitivity of class names are not modelled; classes are looked up by exact name in a table. The constructor that `new $class()` runs is not modelled either: its exceptions and side effects are out of scope, and a successful call is an `Instance` of the class.
- `FakeMiddleware`, `FakeRequestHandler`, `AbstractIterable` and `IterableInterface` are outside the modelled core.

## Findings

| source | as written | input that shows it | evidently intended | confidence | as-written member | corrected member |
|---|---|---|---|---|---|---|
| src/Helper/ReflectionHelper.php:51-56 | `getNumberOfRequiredParameters()` is called on the constructor before the constructor is tested for `null` | a concrete class that has no constructor, declared or inherited: `getConstructor()` is `null`, and PHP raises "Call to a member function getNumberOfRequiredParameters() on null" | such a class is instantiated, as the `$constructor === null` test on line 54 and the doc comment ("classes with empty constructors") intend | high; not executed | ReflectionHelper.ConstructorlessClassRejected | ReflectionHelper.Instantiate |

=== FILE: cache_helper.dfy ===
/**
 * `CacheHelper`: one call surface over a PSR-6 pool and a PSR-16 simple
 * cache, modelled over the two in-memory fakes. Both backends are read
 * through one abstraction, `View`: the key-to-value map a reader is served
 * at a given instant. The helper's laws are stated on it.
 */
module CacheHelper {
  import opened Wrappers
  import opened PhpValue
  import PhpArray
  import Item = FakeCacheItem
  import Pool = FakeCacheItemPool
  import Simple = FakeSimpleCache

  /** The `CacheItemPoolInterface|CacheInterface` union the helper dispatches on. */
  datatype Cache<T> = Psr6(pool: Pool.Pool<T>) | Psr16(simple: Simple.SimpleCache<T>)

  /** The pool keeps each item under its own key; a simple cache has no invariant. */
  predicate Valid<T>(c: Cache<T>) {
    c.Psr6? ==> Pool.Valid(c.pool)
  }

  /** What a reader is served at `now`: PSR-6 items that are hits, PSR-16 entries that are not stale. */
  function View<T>(c: Cache<T>, now: int): map<string, Mixed<T>> {
    match c
    case Psr6(p) => map k | k in p.items && Item.IsHit(p.items[k], now) :: p.items[k].value
    case Psr16(s) => Simple.Live(s, now)
  }

  /**
   * The expiration a value written now under `key` with `ttl` gets. PSR-16
   * takes it from the TTL alone. The PSR-6 branch calls `expiresAfter` only
   * for a non-null TTL, so without one the stored item keeps the expiration
   * it already had.
   */
  function WrittenExpiration<T>(c: Cache<T>, key: string, ttl: Option<int>, now: int): Option<int> {
    if ttl.Some? then Some(now + ttl.value)
    else if c.Psr6? && key in c.pool.items then c.pool.items[key].expiration
    else None
  }

  /**
   * Whether a value written at `now` is still served at `later`. The
   * backends disagree at the expiration instant itself: a PSR-6 item is a
   * miss there, a PSR-16 entry is still served.
   */
  predicate Alive<T>(c: Cache<T>, key: string, ttl: Option<int>, now: int, later: int) {
    var e := WrittenExpiration(c, key, ttl, now);
    e.None? || (if c.Psr6? then later < e.value else later <= e.value)
  }

  /** `getItem($cache, $key)`: the value served, or `null`; reading changes nothing a reader can see. */
  function GetItem<T>(c: Cache<T>, key: string, now: int): (r: (Mixed<T>, Cache<T>))
    ensures r.0 == if key in View(c, now) then View(c, now)[key] else Null
    ensures View(r.1, now) == View(c, now)
    ensures r.1.Psr6? == c.Psr6? && (c.Psr6? ==> r.1 == c)
    ensures c.Psr16? ==> r.1.simple.items == c.simple.items - Simple.Stale(c.simple, [key], now)
    ensures Valid(c) ==> Valid(r.1)
  {
    match c
    case Psr16(s) =>
      var got := Simple.Get(s, key, Null, now);
      (got.0, Psr16(got.1))
    case Psr6(p) =>
      var item := Pool.GetItem(p, key);
      (if Item.IsHit(item, now) then Item.Get(item) else Null, c)
  }

  /** `hasItem($cache, $key)`: whether a value is served for the key. */
  function HasItem<T>(c: Cache<T>, key: string, now: int): (r: (bool, Cache<T>))
    ensures r.0 <==> key in View(c, now)
    ensures c.Psr6? ==> r.0 == Pool.HasItem(c.pool, key, now) && r.1 == c
    ensures c.Psr16? ==> r == (Simple.Has(c.simple, key, now).0, Psr16(Simple.Has(c.simple, key, now).1))
  {
    match c
    case Psr16(s) =>
      var has := Simple.Has(s, key, now);
      (has.0, Psr16(has.1))
    case Psr6(p) => (Item.IsHit(Pool.GetItem(p, key), now), c)
  }

  /** The PSR-6 branch of `setItem`: fetch the item, set it, give it the TTL if any, save it. */
  function SaveValue<T>(p: Pool.Pool<T>, key: string, v: Mixed<T>, ttl: Option<int>, now: int): Pool.Pool<T> {
    var item := Item.Set(Pool.GetItem(p, key), v);
    var item' := if ttl.Some? then Item.ExpiresAfter(item, ttl, now) else item;
    Pool.Save(p, item')
  }

  /** `setItem($cache, $key, $value, $ttl)`. */
  function SetItem<T>(c: Cache<T>, key: string, v: Mixed<T>, ttl: Option<int>, now: int): (r: Cache<T>)
    requires Valid(c)
    ensures Valid(r) && r.Psr6? == c.Psr6?
    ensures forall later :: key in View(r, later) <==> Alive(c, key, ttl, now, later)
    ensures forall later :: key in View(r, later) ==> View(r, later)[key] == v
    ensures forall later, k :: k != key ==> (k in View(r, later) <==> k in View(c, later))
    ensures forall later, k :: k != key && k in View(c, later) ==> View(r, later)[k] == View(c, later)[k]
    ensures c.Psr6? ==> && r.pool.deferred == c.pool.deferred
                        && (forall k :: k != key ==> (k in r.pool.items <==> k in c.pool.items))
                        && (forall k :: k != key && k in c.pool.items ==> r.pool.items[k] == c.pool.items[k])
    ensures c.Psr16? ==> && (forall k :: k != key ==> (k in r.simple.items <==> k in c.simple.items))
                         && (forall k :: k != key && k in c.simple.items ==> r.simple.items[k] == c.simple.items[k])
  {
    match c
    case Psr16(s) => Psr16(Simple.Set(s, key, v, ttl, now))
    case Psr6(p) => Psr6(SaveValue(p, key, v, ttl, now))
  }

  /** `deleteItem($cache, $key)`: the key is served no more; nothing else changes. */
  function DeleteItem<T>(c: Cache<T>, key: string): (r: Cache<T>)
    ensures forall now :: View(r, now) == View(c, now) - {key}
    ensures r.Psr6? == c.Psr6? && (c.Psr6? ==> r.pool.deferred == c.pool.deferred)
    ensures c.Psr6? ==> && r.pool.items.Keys == c.pool.items.Keys - {key}
                        && forall k :: k in r.pool.items ==> r.pool.items[k] == c.pool.items[k]
    ensures c.Psr16? ==> && r.simple.items.Keys == c.simple.items.Keys - {key}
                         && forall k :: k in r.simple.items ==> r.simple.items[k] == c.simple.items[k]
    ensures Valid(c) ==> Valid(r)
  {
    match c
    case Psr16(s) => Psr16(Simple.Delete(s, key))
    case Psr6(p) => Psr6(Pool.DeleteItem(p, key))
  }

  /**
   * `getItems($cache, $keys)`: one entry per requested key, in first-request
   * order, each the value `getItem` serves (`null` for a miss).
   */
  function GetItems<T>(c: Cache<T>, keys: seq<string>, now: int): (r: (PhpArray.Assoc<string, Mixed<T>>, Cache<T>))
    ensures PhpArray.WellFormed(r.0)
    ensures PhpArray.Keys(r.0) == PhpArray.Dedup(keys)
    ensures forall k :: k in keys ==> PhpArray.Get(r.0, k) == Some(GetItem(c, k, now).0)
    ensures View(r.1, now) == View(c, now)
    ensures r.1.Psr16? == c.Psr16?
    ensures c.Psr16? ==> r.1.simple.items == c.simple.items - Simple.Stale(c.simple, keys, now)
  {
    match c
    case Psr16(s) =>
      var got := Simple.GetMultiple(s, keys, Null, now);
      Simple.GetMultipleAnswersEachKey(s, keys, Null, now);
      (got.0, Psr16(got.1))
    case Psr6(p) =>
      var served := (item: Item.Item<T>) => if Item.IsHit(item, now) then Item.Get(item) else Null;
      var direct := (k: string) => GetItem(c, k, now).0;
      PhpArray.MapValuesFromKeys(keys, k => Pool.GetItem(p, k), served, direct);
      PhpArray.FromKeysSpec(keys, direct);
      (PhpArray.MapValues(Pool.GetItems(p, keys), served), c)
  }

  /** `setItems($cache, $values, $ttl)`: each pair is stored as `setItem` would, in order. */
  function SetItems<T>(c: Cache<T>, values: seq<(string, Mixed<T>)>, ttl: Option<int>, now: int): (r: Cache<T>)
    requires Valid(c)
    ensures Valid(r) && r.Psr6? == c.Psr6?
    decreases |values|
  {
    match c
    case Psr16(s) => Psr16(Simple.SetMultiple(s, values, ttl, now))
    case Psr6(p) =>
      if |values| == 0 then c
      else SetItems(SetItem(c, values[0].0, values[0].1, ttl, now), values[1..], ttl, now)
  }

  /** `deleteItems($cache, $keys)`: exactly the listed keys are served no more. */
  function DeleteItems<T>(c: Cache<T>, keys: seq<string>): (r: Cache<T>)
    ensures forall now :: View(r, now) == View(c, now) - set k | k in keys
    ensures r.Psr6? == c.Psr6? && (c.Psr6? ==> r.pool.deferred == c.pool.deferred)
    ensures c.Psr6? ==> && r.pool.items.Keys == c.pool.items.Keys - (set k | k in keys)
                        && forall k :: k in r.pool.items ==> r.pool.items[k] == c.pool.items[k]
    ensures c.Psr16? ==> && r.simple.items.Keys == c.simple.items.Keys - (set k | k in keys)
                         && forall k :: k in r.simple.items ==> r.simple.items[k] == c.simple.items[k]
    ensures Valid(c) ==> Valid(r)
    decreases |keys|
  {
    match c
    case Psr16(s) => Psr16(Simple.DeleteMultiple(s, keys))
    case Psr6(p) =>
      if |keys| == 0 then c
      else
        assert (set k | k in keys) == {keys[0]} + set k | k in keys[1..];
        DeleteItems(DeleteItem(c, keys[0]), keys[1..])
  }

  /** `clear($cache)`: nothing is served afterwards; a pool's deferred queue stays. */
  function Clear<T>(c: Cache<T>): (r: Cache<T>)
    ensures forall now :: View(r, now) == map[]
    ensures r.Psr6? == c.Psr6? && (c.Psr6? ==> r.pool.deferred == c.pool.deferred)
    ensures c.Psr6? ==> r.pool.items == map[]
    ensures c.Psr16? ==> r.simple.items == map[]
    ensures Valid(c) ==> Valid(r)
  {
    match c
    case Psr16(s) => Psr16(Simple.Clear(s))
    case Psr6(p) => Psr6(Pool.Clear(p))
  }

  /**
   * `setItem` then `getItem` on the same key answers the stored value while
   * it is alive and `null` afterwards, on both backends.
   */
  lemma GetAfterSet<T>(c: Cache<T>, key: string, v: Mixed<T>, ttl: Option<int>, now: int, later: int)
    requires Valid(c)
    ensures GetItem(SetItem(c, key, v, ttl, now), key, later).0
      == if Alive(c, key, ttl, now, later) then v else Null
  {
  }

  /**
   * Without a TTL, a key that carried no expiration (or was never stored)
   * is served from then on; with a positive TTL it is served at once.
   */
  lemma GetAfterSetServes<T>(c: Cache<T>, key: string, v: Mixed<T>, ttl: Option<int>, now: int)
    requires Valid(c)
    requires ttl.None? ==> !(c.Psr6? && key in c.pool.items && c.pool.items[key].expiration.Some?)
    requires ttl.Some? ==> ttl.value > 0
    ensures GetItem(SetItem(c, key, v, ttl, now), key, now).0 == v
  {
    GetAfterSet(c, key, v, ttl, now, now);
  }

  /**
   * At the expiration instant itself the backends part ways: a value set
   * with a zero TTL is already a PSR-6 miss but still a PSR-16 hit.
   */
  lemma ExpirationInstantDiffers<T>(p: Pool.Pool<T>, s: Simple.SimpleCache<T>, key: string, v: Mixed<T>, now: int)
    requires Pool.Valid(p)
    ensures GetItem(SetItem(Psr6(p), key, v, Some(0), now), key, now).0 == Null
    ensures GetItem(SetItem(Psr16(s), key, v, Some(0), now), key, now).0 == v
  {
    GetAfterSet(Psr6(p), key, v, Some(0), now, now);
    GetAfterSet(Psr16(s), key, v, Some(0), now, now);
  }

  /**
   * On PSR-6 a TTL-less `setItem` does not reset an expiration the stored
   * item already has: the new value disappears when the old one would have.
   */
  lemma Psr6NullTtlKeepsExpiration<T>(key: string, v1: Mixed<T>, v2: Mixed<T>, now: int)
    ensures var c := SetItem(Psr6(Pool.Empty()), key, v1, Some(10), now);
      GetItem(SetItem(c, key, v2, None, now), key, now + 10).0 == Null
    ensures var c := SetItem(Psr16(Simple.Empty()), key, v1, Some(10), now);
      GetItem(SetItem(c, key, v2, None, now), key, now + 10).0 == v2
  {
    var c6 := SetItem(Psr6(Pool.Empty<T>()), key, v1, Some(10), now);
    GetAfterSet(c6, key, v2, None, now, now + 10);
    var c16 := SetItem(Psr16(Simple.Empty<T>()), key, v1, Some(10), now);
    GetAfterSet(c16, key, v2, None, now, now + 10);
  }

  /** `deleteItem` then `getItem` answers `null`, on both backends. */
  lemma GetAfterDelete<T>(c: Cache<T>, key: string, now: int)
    ensures GetItem(DeleteItem(c, key), key, now).0 == Null
    ensures !HasItem(DeleteItem(c, key), key, now).0
  {
  }

  /** After `clear`, `hasItem` is false for every key at every instant. */
  lemma HasAfterClear<T>(c: Cache<T>, key: string, now: int)
    ensures !HasItem(Clear(c), key, now).0
    ensures GetItem(Clear(c), key, now).0 == Null
  {
  }

  /** `hasItem` holds exactly when `getItem` finds a served value, on both backends. */
  lemma HasItemAgreesWithGetItem<T>(c: Cache<T>, key: string, now: int)
    ensures HasItem(c, key, now).0 <==> key in View(c, now)
    ensures HasItem(c, key, now).0 ==> GetItem(c, key, now).0 == View(c, now)[key]
    ensures !HasItem(c, key, now).0 ==> GetItem(c, key, now).0 == Null
  {
  }

  /** A TTL-less or TTL'd write leaves every other key's written expiration as it was. */
  lemma WrittenExpirationStable<T>(c: Cache<T>, k0: string, v0: Mixed<T>, ttl: Option<int>, now: int, key: string)
    requires Valid(c)
    ensures WrittenExpiration(SetItem(c, k0, v0, ttl, now), key, ttl, now) == WrittenExpiration(c, key, ttl, now)
  {
  }

  /** Storing a non-empty list is storing its head with `setItem`, then the rest. */
  lemma SetItemsUnfold<T>(c: Cache<T>, values: seq<(string, Mixed<T>)>, ttl: Option<int>, now: int)
    requires Valid(c) && |values| > 0
    ensures SetItems(c, values, ttl, now)
      == SetItems(SetItem(c, values[0].0, values[0].1, ttl, now), values[1..], ttl, now)
  {
  }

  /**
   * `setItems` serves, under each key it writes, the last value written for
   * that key, alive exactly as a single `setItem` would be; keys it does
   * not write are served as before.
   */
  lemma {:induction false} SetItemsLastWriteWins<T>(c: Cache<T>, values: seq<(string, Mixed<T>)>, ttl: Option<int>, now: int, key: string, later: int)
    requires Valid(c)
    ensures var r := SetItems(c, values, ttl, now);
      match Simple.LastWrite(values, key)
      case Some(v) =>
        && (key in View(r, later) <==> Alive(c, key, ttl, now, later))
        && (key in View(r, later) ==> View(r, later)[key] == v)
      case None =>
        && (key in View(r, later) <==> key in View(c, later))
        && (key in View(c, later) ==> View(r, later)[key] == View(c, later)[key])
    decreases |values|
  {
    if |values| > 0 {
      var c' := SetItem(c, values[0].0, values[0].1, ttl, now);
      SetItemsUnfold(c, values, ttl, now);
      WrittenExpirationStable(c, values[0].0, values[0].1, ttl, now, key);
      SetItemsLastWriteWins(c', values[1..], ttl, now, key, later);
    }
  }
}

=== FILE: config_loader.dfy ===
/**
 * The lazy configuration loader (`Zenigata\Utility\Config\Loader`).
 *
 * `load($label)` resolves a table of configuration paths, optionally grouped
 * under labels, into an ordered path list and wraps it in a collection that
 * is countable without touching any file. Files are checked and evaluated
 * only while the collection is traversed, one per produced element, and the
 * traversal stops at the first path that is not a readable file.
 *
 * The file system is a map from path to what `is_file`, `is_readable` and
 * `require` observe there; the value a file returns is an opaque `V`.
 */
module ConfigLoader {
  import opened Wrappers
  import PhpArray

  type Path = string
  type Label = string

  /** What the loader can observe at one path. */
  datatype FileState<V> =
    | Missing            // `is_file` is false: nothing there, or not a regular file
    | Unreadable         // a file, but `is_readable` is false
    | Readable(value: V) // a readable file; `require` evaluates to `value`

  /** The file system; a path the map does not mention is `Missing`. */
  type FileSystem<V> = map<Path, FileState<V>>

  function Inspect<V>(fs: FileSystem<V>, p: Path): FileState<V> {
    if p in fs then fs[p] else Missing
  }

  /**
   * One value of the path table: a bare path, a list of paths, or a `null`
   * left in the table (for which `isset` is false and `(array)` gives `[]`).
   */
  datatype Entry = Single(path: Path) | Many(paths: seq<Path>) | NullEntry

  /** The loader's constructor argument: labels (or list indices) to entries, in table order. */
  type PathTable = PhpArray.Assoc<Label, Entry>

  datatype LoadError =
    | LabelNotFound(group: Label)
    | InvalidOrUnreadableFile(path: Path)

  /** The `RuntimeException` message the loader raises for each error. */
  function Message(e: LoadError): string {
    match e
    case LabelNotFound(l) => "No entries found for label: " + l
    case InvalidOrUnreadableFile(p) => "Invalid or unreadable file: " + p
  }

  /** `(array) $entry`. */
  function Normalize(e: Entry): seq<Path> {
    match e
    case Single(p) => [p]
    case Many(ps) => ps
    case NullEntry => []
  }

  /** The flat (label-less) resolution: every entry's paths, in table order, labels dropped. */
  function Flatten(table: PathTable): (r: seq<Path>)
    ensures forall p :: p in r <==> exists i :: 0 <= i < |table| && p in Normalize(table[i].1)
  {
    if |table| == 0 then []
    else
      var rest := Flatten(table[1..]);
      assert forall i :: 1 <= i < |table| ==> table[i] == table[1..][i - 1];
      Normalize(table[0].1) + rest
  }

  /** `resolvePaths($label)`: a label lookup that fails fast, or the flat resolution. */
  function ResolvePaths(table: PathTable, group: Option<Label>): (r: Result<seq<Path>, LoadError>)
    ensures PhpArray.WellFormed(table) ==>
      (r.Failure? <==> group.Some? && forall i :: 0 <= i < |table| && table[i].0 == group.value ==> table[i].1.NullEntry?)
    ensures r.Failure? ==> group.Some? && r.error == LabelNotFound(group.value)
    ensures group.None? ==> r.Success? && |r.value| == TotalPaths(table)
  {
    FlatCount(table);
    match group
    case Some(l) =>
      LabelLookup(table, l);
      var e := PhpArray.Get(table, l);
      if e.None? || e.value.NullEntry? then Failure(LabelNotFound(l))
      else Success(Normalize(e.value))
    case None => Success(Flatten(table))
  }

  /** In a table without repeated labels, `isset($paths[$l])` fails exactly when every entry under `l` is `null`. */
  lemma LabelLookup(table: PathTable, l: Label)
    ensures PhpArray.WellFormed(table) ==>
      ((PhpArray.Get(table, l).None? || PhpArray.Get(table, l).value.NullEntry?)
        <==> forall i :: 0 <= i < |table| && table[i].0 == l ==> table[i].1.NullEntry?)
  {
    if PhpArray.WellFormed(table) {
      PhpArray.InKeys(table, l);
      forall i | 0 <= i < |table| && table[i].0 == l
        ensures PhpArray.Get(table, l) == Some(table[i].1)
      {
        PhpArray.GetAt(table, i);
      }
    }
  }

  /** The anonymous countable, iterable collection `load` returns; it owns its path list. */
  datatype Collection = Collection(paths: seq<Path>)

  /**
   * `load($label)`. It takes no file system: building the collection
   * examines no file, so a bad label is the only way it can fail.
   */
  function Load(table: PathTable, group: Option<Label>): (r: Result<Collection, LoadError>)
    ensures r.Failure? <==> ResolvePaths(table, group).Failure?
    ensures r.Failure? ==> group.Some? && r.error == LabelNotFound(group.value)
    ensures r.Success? ==> r.value.paths == ResolvePaths(table, group).value
  {
    var paths :- ResolvePaths(table, group);
    Success(Collection(paths))
  }

  /** `count()`: the number of resolved paths; it takes no file system either. */
  function Count(c: Collection): nat {
    |c.paths|
  }

  /**
   * The index of the first path that is not a readable file, or the
   * number of paths when every one is readable.
   */
  function FirstInvalid<V>(paths: seq<Path>, fs: FileSystem<V>): (k: nat)
    ensures k <= |paths|
    ensures forall i :: 0 <= i < k ==> Inspect(fs, paths[i]).Readable?
    ensures k < |paths| ==> !Inspect(fs, paths[k]).Readable?
  {
    if |paths| == 0 || !Inspect(fs, paths[0]).Readable? then 0
    else 1 + FirstInvalid(paths[1..], fs)
  }

  /**
   * One traversal of `getIterator()`, driven until the generator finishes
   * or throws: the values it yielded, the paths it checked, and the path
   * it threw on.
   */
  datatype Run<V> = Run(yielded: seq<V>, checked: seq<Path>, failure: Option<Path>)

  /**
   * The generator body: for each path in order, check it, then yield what
   * `require` returns; throw at the first path that is not a readable file.
   */
  function Iterate<V>(paths: seq<Path>, fs: FileSystem<V>): (r: Run<V>)
    ensures var k := FirstInvalid(paths, fs);
      && (r.failure.None? <==> k == |paths|)
      && (r.failure.Some? ==> r.failure.value == paths[k] && r.checked == paths[..k + 1])
      && (r.failure.None? ==> r.checked == paths)
      && |r.yielded| == k
      && forall i :: 0 <= i < k ==> r.yielded[i] == Inspect(fs, paths[i]).value
  {
    if |paths| == 0 then Run([], [], None)
    else
      match Inspect(fs, paths[0])
      case Readable(v) =>
        var rest := Iterate(paths[1..], fs);
        var k := FirstInvalid(paths[1..], fs);
        assert FirstInvalid(paths, fs) == k + 1;
        assert rest.failure.Some? ==> [paths[0]] + paths[1..][..k + 1] == paths[..k + 2];
        assert paths == [paths[0]] + paths[1..];
        Run([v] + rest.yielded, [paths[0]] + rest.checked, rest.failure)
      case _ => Run([], [paths[0]], Some(paths[0]))
  }

  /**
   * `toArray()`: `iterator_to_array($this->getIterator(), false)`. Either
   * every path loads and the values come back re-indexed from 0 in path
   * order, or the first failure is raised and nothing is returned.
   */
  function ToArray<V>(c: Collection, fs: FileSystem<V>): (r: Result<seq<V>, LoadError>)
    ensures r.Success? <==> forall i :: 0 <= i < |c.paths| ==> Inspect(fs, c.paths[i]).Readable?
    ensures r.Success? ==> |r.value| == Count(c)
    ensures r.Success? ==> forall i :: 0 <= i < |c.paths| ==> r.value[i] == Inspect(fs, c.paths[i]).value
    ensures r.Failure? ==> var k := FirstInvalid(c.paths, fs);
      k < |c.paths| && r.error == InvalidOrUnreadableFile(c.paths[k])
  {
    var run := Iterate(c.paths, fs);
    if run.failure.Some? then Failure(InvalidOrUnreadableFile(run.failure.value))
    else Success(run.yielded)
  }

  /**
   * The same materialisation written as the loop PHP runs: check a path,
   * load it, append, move on; stop at the first bad path.
   */
  method Materialize<V>(c: Collection, fs: FileSystem<V>) returns (r: Result<seq<V>, LoadError>)
    ensures r == ToArray(c, fs)
  {
    var values: seq<V> := [];
    var i := 0;
    while i < |c.paths|
      invariant 0 <= i <= |c.paths|
      invariant forall j :: 0 <= j < i ==> Inspect(fs, c.paths[j]).Readable?
      invariant |values| == i
      invariant forall j :: 0 <= j < i ==> values[j] == Inspect(fs, c.paths[j]).value
    {
      var state := Inspect(fs, c.paths[i]);
      if !state.Readable? {
        return Failure(InvalidOrUnreadableFile(c.paths[i]));
      }
      values := values + [state.value];
      i := i + 1;
    }
    assert values == Iterate(c.paths, fs).yielded;
    return Success(values);
  }

  /**
   * A label whose entries are all absent or `null` fails with
   * `LabelNotFound`, and a label with a non-null entry never does. The
   * failure is decided from the table alone, before any file is examined.
   */
  lemma UnknownLabelFailsFast(table: PathTable, l: Label)
    ensures Load(table, Some(l)).Failure? <==>
      forall i :: 0 <= i < |table| && table[i].0 == l ==> table[i].1.NullEntry?
    ensures Load(table, Some(l)).Failure? ==>
      Message(Load(table, Some(l)).error) == "No entries found for label: " + l
    requires PhpArray.WellFormed(table)
  {
  }

  /**
   * Loading a present label resolves to that entry's paths only, a bare
   * path becoming a one-element list, and counts exactly those paths.
   */
  lemma LabelledLoad(table: PathTable, i: int)
    requires PhpArray.WellFormed(table)
    requires 0 <= i < |table| && !table[i].1.NullEntry?
    ensures Load(table, Some(table[i].0)) == Success(Collection(Normalize(table[i].1)))
    ensures Count(Load(table, Some(table[i].0)).value) == |Normalize(table[i].1)|
    ensures table[i].1.Single? ==> Load(table, Some(table[i].0)).value.paths == [table[i].1.path]
  {
    PhpArray.GetAt(table, i);
  }

  /** Flat resolution distributes over the table: entries contribute in table order, with no de-duplication. */
  lemma {:induction false} FlattenAppend(t1: PathTable, t2: PathTable)
    ensures Flatten(t1 + t2) == Flatten(t1) + Flatten(t2)
  {
    if |t1| == 0 {
      assert t1 + t2 == t2;
    } else {
      assert (t1 + t2)[0] == t1[0];
      assert (t1 + t2)[1..] == t1[1..] + t2;
      FlattenAppend(t1[1..], t2);
    }
  }

  /**
   * The paths a labelled load resolves are exactly the window of the flat
   * resolution that the entry occupies.
   */
  lemma LabelIsWindowOfFlat(table: PathTable, i: int)
    requires 0 <= i < |table|
    ensures var start := |Flatten(table[..i])|;
      var ps := Normalize(table[i].1);
      start + |ps| <= |Flatten(table)| && Flatten(table)[start..start + |ps|] == ps
  {
    assert table == table[..i] + ([table[i]] + table[i + 1..]);
    FlattenAppend(table[..i], [table[i]] + table[i + 1..]);
    FlattenAppend([table[i]], table[i + 1..]);
    assert Flatten([table[i]]) == Normalize(table[i].1);
  }

  /** Without a label the count is the total number of paths over all entries. */
  lemma FlatLoad(table: PathTable)
    ensures Load(table, None).Success?
    ensures Count(Load(table, None).value) == TotalPaths(table)
  {
    FlatCount(table);
  }

  /** The number of paths the entries of `table` hold between them. */
  function TotalPaths(table: PathTable): nat {
    if |table| == 0 then 0 else |Normalize(table[0].1)| + TotalPaths(table[1..])
  }

  lemma {:induction false} FlatCount(table: PathTable)
    ensures |Flatten(table)| == TotalPaths(table)
  {
    if |table| > 0 {
      FlatCount(table[1..]);
    }
  }

  /** The resolution order of a mixed table: a bare path, then a list, labels dropped. */
  lemma FlatOrderExample(p1: Path, p2: Path, p3: Path)
    ensures Load([("a", Single(p1)), ("b", Many([p2, p3]))], None)
      == Success(Collection([p1, p2, p3]))
  {
    var t := [("a", Single(p1)), ("b", Many([p2, p3]))];
    assert t[1..] == [("b", Many([p2, p3]))];
    assert t[1..][1..] == [];
    assert Flatten(t[1..]) == [p2, p3] + Flatten(t[1..][1..]);
    assert Flatten(t) == [p1] + Flatten(t[1..]);
    assert Flatten(t) == [p1, p2, p3];
  }

  /**
   * Laziness: a consumer that pulls only the first `n` elements runs the
   * generator over the first `n` paths, so it checks no path beyond them,
   * and what it sees is a prefix of what a full traversal sees.
   */
  lemma PartialTraversal<V>(paths: seq<Path>, fs: FileSystem<V>, n: nat)
    requires n <= |paths|
    ensures var pre := Iterate(paths[..n], fs);
      var full := Iterate(paths, fs);
      && |pre.checked| <= n
      && pre.checked <= full.checked
      && pre.yielded <= full.yielded
      && (pre.failure.Some? ==> full == pre)
  {
    FirstInvalidPrefix(paths, fs, n);
    PrefixChecked(paths, fs, n);
    PrefixYielded(paths, fs, n);
  }

  lemma PrefixChecked<V>(paths: seq<Path>, fs: FileSystem<V>, n: nat)
    requires n <= |paths|
    requires FirstInvalid(paths[..n], fs) == if FirstInvalid(paths, fs) < n then FirstInvalid(paths, fs) else n
    ensures Iterate(paths[..n], fs).checked <= Iterate(paths, fs).checked
    ensures Iterate(paths[..n], fs).failure.Some? ==> Iterate(paths[..n], fs).failure == Iterate(paths, fs).failure
  {
  }

  lemma PrefixYielded<V>(paths: seq<Path>, fs: FileSystem<V>, n: nat)
    requires n <= |paths|
    requires FirstInvalid(paths[..n], fs) == if FirstInvalid(paths, fs) < n then FirstInvalid(paths, fs) else n
    ensures Iterate(paths[..n], fs).yielded <= Iterate(paths, fs).yielded
  {
  }

  /**
   * `count()` needs no file, but it is what a traversal would visit: the
   * traversal yields `count()` values exactly when it runs to the end, and
   * never checks more than `count()` paths.
   */
  lemma CountIsCompleteTraversal<V>(c: Collection, fs: FileSystem<V>)
    ensures |Iterate(c.paths, fs).checked| <= Count(c)
    ensures Iterate(c.paths, fs).failure.None? <==> |Iterate(c.paths, fs).yielded| == Count(c)
  {
  }

  /** Checking a prefix finds the same first invalid path, if it lies inside the prefix. */
  lemma FirstInvalidPrefix<V>(paths: seq<Path>, fs: FileSystem<V>, n: nat)
    requires n <= |paths|
    ensures var k, K := FirstInvalid(paths[..n], fs), FirstInvalid(paths, fs);
      k == if K < n then K else n
  {
    assert forall i :: 0 <= i < n ==> paths[..n][i] == paths[i];
  }

  /**
   * Short-circuit: a traversal consults only the paths it checked, so the
   * files after the first failure can be anything at all.
   */
  lemma {:induction false} TraversalReadsOnlyCheckedPaths<V>(paths: seq<Path>, fs1: FileSystem<V>, fs2: FileSystem<V>)
    requires forall p :: p in Iterate(paths, fs1).checked ==> Inspect(fs1, p) == Inspect(fs2, p)
    ensures Iterate(paths, fs2) == Iterate(paths, fs1)
  {
    if |paths| > 0 {
      assert paths[0] in Iterate(paths, fs1).checked;
      if Inspect(fs1, paths[0]).Readable? {
        TraversalReadsOnlyCheckedPaths(paths[1..], fs1, fs2);
      }
    }
  }

  /**
   * Nothing is cached: when the file at position `i` of a collection changes
   * between two `toArray()` calls, the second call sees the change: when
   * both succeed, each with `count()` values, they differ at `i`; and the
   * call made while that file is unreadable fails even if the other did not.
   */
  lemma NoMemoization<V>(c: Collection, fs1: FileSystem<V>, fs2: FileSystem<V>, i: int)
    requires 0 <= i < |c.paths|
    requires Inspect(fs1, c.paths[i]) != Inspect(fs2, c.paths[i])
    ensures ToArray(c, fs1).Success? && ToArray(c, fs2).Success? ==>
      && |ToArray(c, fs1).value| == |ToArray(c, fs2).value| == Count(c)
      && ToArray(c, fs1).value[i] != ToArray(c, fs2).value[i]
    ensures ToArray(c, fs1).Success? && !Inspect(fs2, c.paths[i]).Readable? ==> ToArray(c, fs2).Failure?
    ensures ToArray(c, fs2).Success? && !Inspect(fs1, c.paths[i]).Readable? ==> ToArray(c, fs1).Failure?
  {
  }
}

=== FILE: fake_cache_item.dfy ===
/**
 * The PSR-6 cache item fake (`FakeCacheItem`): a key, a value, a hit flag
 * and an optional absolute expiration. Time is an integer count of seconds
 * passed in as `now` wherever the source reads the wall clock.
 */
module FakeCacheItem {
  import opened Wrappers
  import opened PhpValue

  datatype Item<T> = Item(key: string, value: Mixed<T>, hit: bool, expiration: Option<int>)

  /** `new FakeCacheItem($key)`: no value, not a hit, no expiration. */
  function Fresh<T>(key: string): (item: Item<T>)
    ensures item.key == key && item.value == Null
    ensures !item.hit && item.expiration == None
    ensures forall now :: !IsHit(item, now)
  {
    Item(key, Null, false, None)
  }

  /** `getKey()`. */
  function GetKey<T>(item: Item<T>): string {
    item.key
  }

  /** `get()`: the stored value, whether or not the item is a hit. */
  function Get<T>(item: Item<T>): Mixed<T> {
    item.value
  }

  /** `isHit()` at time `now`: flagged as a hit and not yet at its expiration (strictly). */
  predicate IsHit<T>(item: Item<T>, now: int) {
    item.hit && (item.expiration.None? || item.expiration.value > now)
  }

  /** `set($value)`. */
  function Set<T>(item: Item<T>, v: Mixed<T>): (r: Item<T>)
    ensures GetKey(r) == GetKey(item) && Get(r) == v
    ensures forall now :: IsHit(r, now) <==> item.expiration.None? || now < item.expiration.value
  {
    item.(value := v, hit := true)
  }

  /** `expiresAt($expiration)`: the instant is stored as given. */
  function ExpiresAt<T>(item: Item<T>, expiration: Option<int>): (r: Item<T>)
    ensures GetKey(r) == GetKey(item) && Get(r) == Get(item)
    ensures forall now :: IsHit(r, now) <==> item.hit && (expiration.None? || now < expiration.value)
    ensures r.hit == item.hit && r.expiration == expiration
  {
    item.(expiration := expiration)
  }

  /** `expiresAfter($time)` at time `now`: no expiration for `null`, else `now + time` seconds. */
  function ExpiresAfter<T>(item: Item<T>, time: Option<int>, now: int): (r: Item<T>)
    ensures GetKey(r) == GetKey(item) && Get(r) == Get(item)
    ensures time.None? ==> forall later :: IsHit(r, later) == item.hit
    ensures time.Some? ==> forall later :: IsHit(r, later) <==> item.hit && later < now + time.value
    ensures r.hit == item.hit && r.expiration == (if time.None? then None else Some(now + time.value))
  {
    if time.None? then item.(expiration := None)
    else item.(expiration := Some(now + time.value))
  }

  /**
   * A value set with a lifetime of `n` seconds is served for exactly the
   * `n` seconds that follow: at `now + n` it is already a miss, so a zero
   * lifetime is a miss at once.
   */
  lemma SetThenExpiresAfter<T>(key: string, v: Mixed<T>, n: int, now: int, later: int)
    ensures var item := ExpiresAfter(Set(Fresh<T>(key), v), Some(n), now);
      GetKey(item) == key && Get(item) == v && (IsHit(item, later) <==> later < now + n)
  {
  }
}

=== FILE: fake_cache_item_pool.dfy ===
/**
 * The PSR-6 pool fake (`FakeCacheItemPool`): committed items keyed by
 * their cache keys, plus the items saved for a later `commit()`. Items are
 * values here; a pool operation returns the new pool. Every mutator of the
 * source returns the constant `true`, which the model does not carry.
 */
module FakeCacheItemPool {
  import opened Wrappers
  import opened PhpValue
  import PhpArray
  import opened FakeCacheItem

  datatype Pool<T> = Pool(items: map<string, Item<T>>, deferred: PhpArray.Assoc<string, Item<T>>)

  /** The empty pool a fresh `FakeCacheItemPool` starts as. */
  function Empty<T>(): (p: Pool<T>)
    ensures Valid(p)
    ensures p.items == map[] && p.deferred == []
  {
    Pool(map[], [])
  }

  /** Every item is filed under its own key, in both stores. */
  predicate Valid<T>(p: Pool<T>) {
    && (forall k :: k in p.items ==> p.items[k].key == k)
    && PhpArray.WellFormed(p.deferred)
    && (forall i :: 0 <= i < |p.deferred| ==> p.deferred[i].1.key == p.deferred[i].0)
  }

  /** `getItem($key)`: the stored item, or a fresh miss carrying the key. */
  function GetItem<T>(p: Pool<T>, key: string): (item: Item<T>)
    ensures key in p.items ==> item == p.items[key]
    ensures key !in p.items ==> item == Fresh(key) && forall now :: !IsHit(item, now)
    ensures Valid(p) ==> item.key == key
  {
    if key in p.items then p.items[key] else Fresh(key)
  }

  /** `getItems($keys)`: `$items[$key] = getItem($key)` for each requested key, in order. */
  function GetItems<T>(p: Pool<T>, keys: seq<string>): (r: PhpArray.Assoc<string, Item<T>>)
    ensures PhpArray.WellFormed(r)
    ensures PhpArray.Keys(r) == PhpArray.Dedup(keys)
    ensures forall k :: k in keys ==> PhpArray.Get(r, k) == Some(GetItem(p, k))
  {
    var f := (k: string) => GetItem(p, k);
    PhpArray.FromKeysSpec(keys, f);
    PhpArray.FromKeys(keys, f)
  }

  /** `hasItem($key)`: whether the item `getItem` returns is a hit at `now`. */
  predicate HasItem<T>(p: Pool<T>, key: string, now: int)
    ensures HasItem(p, key, now) <==> key in p.items && IsHit(p.items[key], now)
  {
    IsHit(GetItem(p, key), now)
  }

  /** `clear()`: drops every committed item; deferred items stay. */
  function Clear<T>(p: Pool<T>): (r: Pool<T>)
    ensures r.items == map[] && r.deferred == p.deferred
    ensures forall k, now :: !HasItem(r, k, now)
  {
    p.(items := map[])
  }

  /** `deleteItem($key)`: unset one key; an absent key is a no-op. */
  function DeleteItem<T>(p: Pool<T>, key: string): (r: Pool<T>)
    ensures r.items.Keys == p.items.Keys - {key}
    ensures forall k :: k in r.items ==> r.items[k] == p.items[k]
    ensures r.deferred == p.deferred
    ensures key !in p.items ==> r == p
  {
    p.(items := p.items - {key})
  }

  /** `deleteItems($keys)`: unset each listed key in turn. */
  function DeleteItems<T>(p: Pool<T>, keys: seq<string>): (r: Pool<T>)
    ensures r.items.Keys == p.items.Keys - set k | k in keys
    ensures forall k :: k in r.items ==> r.items[k] == p.items[k]
    ensures r.deferred == p.deferred
    decreases |keys|
  {
    if |keys| == 0 then p
    else DeleteItems(DeleteItem(p, keys[0]), keys[1..])
  }

  /** `save($item)`: file the item under its own key, replacing what was there. */
  function Save<T>(p: Pool<T>, item: Item<T>): (r: Pool<T>)
    ensures item.key in r.items && r.items[item.key] == item
    ensures forall k :: k != item.key ==> (k in r.items <==> k in p.items)
    ensures forall k :: k != item.key && k in p.items ==> r.items[k] == p.items[k]
    ensures r.deferred == p.deferred
  {
    p.(items := p.items[item.key := item])
  }

  /** `saveDeferred($item)`: queue the item under its own key; the committed items are untouched. */
  function SaveDeferred<T>(p: Pool<T>, item: Item<T>): (r: Pool<T>)
    ensures r.items == p.items
    ensures PhpArray.Get(r.deferred, item.key) == Some(item)
    ensures forall k :: k != item.key ==> PhpArray.Get(r.deferred, k) == PhpArray.Get(p.deferred, k)
  {
    p.(deferred := PhpArray.Put(p.deferred, item.key, item))
  }

  /** Save the queued items one after another, in queue order. */
  function SaveAll<T>(items: map<string, Item<T>>, queue: PhpArray.Assoc<string, Item<T>>): map<string, Item<T>>
    decreases |queue|
  {
    if |queue| == 0 then items
    else SaveAll(items[queue[0].1.key := queue[0].1], queue[1..])
  }

  /** `commit()`: save every deferred item, then empty the queue. */
  function Commit<T>(p: Pool<T>): (r: Pool<T>)
    ensures r.deferred == []
  {
    Pool(SaveAll(p.items, p.deferred), [])
  }

  /** The queue read as a map from key to queued item. */
  function QueuedMap<T>(queue: PhpArray.Assoc<string, Item<T>>): (m: map<string, Item<T>>)
    ensures forall k :: k in m <==> k in PhpArray.Keys(queue)
  {
    map k | k in PhpArray.Keys(queue) :: PhpArray.Get(queue, k).value
  }

  /** The queue minus its head, read as a map, is the whole queue's map without the head's key. */
  lemma QueuedMapTail<T>(queue: PhpArray.Assoc<string, Item<T>>)
    requires |queue| > 0 && PhpArray.WellFormed(queue)
    ensures queue[0].0 !in PhpArray.Keys(queue[1..])
    ensures QueuedMap(queue) == QueuedMap(queue[1..])[queue[0].0 := queue[0].1]
  {
    PhpArray.KeysAt(queue, 0);
    assert PhpArray.Keys(queue) == [queue[0].0] + PhpArray.Keys(queue[1..]);
    forall j | 0 <= j < |PhpArray.Keys(queue[1..])|
      ensures PhpArray.Keys(queue[1..])[j] != queue[0].0
    {
      assert PhpArray.Keys(queue[1..])[j] == PhpArray.Keys(queue)[j + 1];
    }
  }

  /**
   * `commit()` on a valid pool: every queued item lands in the committed
   * items under its key, every other committed item stays, the queue
   * empties, and the pool stays valid.
   */
  lemma CommitSavesQueue<T>(p: Pool<T>)
    requires Valid(p)
    ensures Commit(p).items == p.items + QueuedMap(p.deferred)
    ensures Commit(p).deferred == []
    ensures Valid(Commit(p))
  {
    SaveAllIsUnion(p.items, p.deferred);
    SaveAllFilesByKey(p.items, p.deferred);
  }

  /** Saving the queue in order gives the committed items overridden by the queued ones. */
  lemma {:induction false} SaveAllIsUnion<T>(items: map<string, Item<T>>, queue: PhpArray.Assoc<string, Item<T>>)
    requires PhpArray.WellFormed(queue)
    requires forall i :: 0 <= i < |queue| ==> queue[i].1.key == queue[i].0
    ensures SaveAll(items, queue) == items + QueuedMap(queue)
    decreases |queue|
  {
    if |queue| == 0 {
      assert QueuedMap(queue) == map[];
    } else {
      var k, item := queue[0].0, queue[0].1;
      assert item.key == k;
      PhpArray.WellFormedTail(queue);
      SaveAllIsUnion(items[k := item], queue[1..]);
      QueuedMapTail(queue);
      UpdateThenUnion(items, QueuedMap(queue[1..]), k, item);
    }
  }

  lemma UpdateThenUnion<T>(m: map<string, Item<T>>, n: map<string, Item<T>>, k: string, v: Item<T>)
    requires k !in n
    ensures m[k := v] + n == m + n[k := v]
  {
  }

  /** Saving queued items that are filed under their own keys keeps every item under its own key. */
  lemma {:induction false} SaveAllFilesByKey<T>(items: map<string, Item<T>>, queue: PhpArray.Assoc<string, Item<T>>)
    requires forall i :: 0 <= i < |queue| ==> queue[i].1.key == queue[i].0
    requires forall k :: k in items ==> items[k].key == k
    ensures forall k :: k in SaveAll(items, queue) ==> SaveAll(items, queue)[k].key == k
    decreases |queue|
  {
    if |queue| > 0 {
      SaveAllFilesByKey(items[queue[0].1.key := queue[0].1], queue[1..]);
    }
  }

  /** Every pool operation keeps each item filed under its own key. */
  lemma OperationsPreserveValid<T>(p: Pool<T>, item: Item<T>, key: string, keys: seq<string>)
    requires Valid(p)
    ensures Valid(Save(p, item))
    ensures Valid(SaveDeferred(p, item))
    ensures Valid(DeleteItem(p, key))
    ensures Valid(DeleteItems(p, keys))
    ensures Valid(Clear(p))
  {
    var q := PhpArray.Put(p.deferred, item.key, item);
    PhpArray.PutWellFormed(p.deferred, item.key, item);
    forall i | 0 <= i < |q|
      ensures q[i].1.key == q[i].0
    {
      if q[i].0 != item.key {
        PhpArray.GetAt(q, i);
        assert PhpArray.Get(p.deferred, q[i].0) == Some(q[i].1);
        PhpArray.InKeys(p.deferred, q[i].0);
        var j :| 0 <= j < |p.deferred| && p.deferred[j].0 == q[i].0;
        PhpArray.GetAt(p.deferred, j);
      } else {
        PhpArray.GetAt(q, i);
      }
    }
  }
}

=== FILE: fake_container.dfy ===
/**
 * `FakeContainer`: an in-memory PSR-11 container over a PHP array of
 * entries keyed by service id.
 *
 * Service ids are strings, but PHP stores a canonical decimal string key
 * ("0", "42", "-7") as an integer key. That coercion is modelled, since it
 * decides whether an array of entries is a list.
 */
module FakeContainer {
  import opened Wrappers
  import opened PhpValue
  import PhpArray
  import PhpString

  /** The entries as the array holds them: keys after coercion, values possibly `null`. */
  type Entries<T> = PhpArray.Assoc<ArrayKey, Mixed<T>>

  datatype Container<T> = Container(entries: Entries<T>)

  datatype ContainerError =
    | NotAssociative(className: string)   // LogicException from the constructor
    | NotFound(id: string)                // the NotFoundExceptionInterface of `get`

  function Message(e: ContainerError): string {
    match e
    case NotAssociative(c) => "Class '" + c + "' requires an associative array of entries."
    case NotFound(id) => "Service '" + id + "' not found."
  }

  /** All characters are decimal digits. */
  predicate AllDigits(s: string) {
    forall i :: 0 <= i < |s| ==> '0' <= s[i] <= '9'
  }

  /** A string PHP reads as a non-negative integer key: digits, no leading zero unless it is "0". */
  predicate CanonicalDecimal(s: string) {
    |s| > 0 && AllDigits(s) && (s[0] == '0' ==> |s| == 1)
  }

  /** The array key PHP uses for the string `$id`. */
  function KeyOf(id: string): (k: ArrayKey)
    ensures k.StrKey? ==> k.s == id
  {
    if CanonicalDecimal(id) then IntKey(PhpString.DecimalValue(id))
    else if |id| > 1 && id[0] == '-' && CanonicalDecimal(id[1..]) && id[1..] != "0" then
      IntKey(0 - PhpString.DecimalValue(id[1..]) as int)
    else StrKey(id)
  }

  /** `array_is_list($entries)`: the keys are 0, 1, 2, ... in order. */
  predicate IsList<V>(entries: PhpArray.Assoc<ArrayKey, V>) {
    forall i :: 0 <= i < |entries| ==> entries[i].0 == IntKey(i)
  }

  /**
   * `new FakeContainer($entries)`, `className` standing for `static::class`:
   * a non-empty list is refused; anything else, the empty array included,
   * is kept as is.
   */
  function New<T>(entries: Entries<T>, className: string): (r: Result<Container<T>, ContainerError>)
    ensures r.Failure? <==> |entries| > 0 && IsList(entries)
    ensures r.Failure? ==> r.error == NotAssociative(className)
    ensures r.Success? ==> r.value.entries == entries
  {
    if |entries| > 0 && IsList(entries) then Failure(NotAssociative(className))
    else Success(Container(entries))
  }

  /** `has($id)`: `isset($this->entries[$id])`, so a `null` entry is not there. */
  predicate Has<T>(c: Container<T>, id: string) {
    var e := PhpArray.Get(c.entries, KeyOf(id));
    e.Some? && e.value.Val?
  }

  /** `get($id)`: the entry when `has($id)`, otherwise the not-found error. */
  function Get<T>(c: Container<T>, id: string): (r: Result<T, ContainerError>)
    ensures r.Success? <==> Has(c, id)
    ensures r.Success? ==> PhpArray.Get(c.entries, KeyOf(id)) == Some(Val(r.value))
    ensures r.Failure? ==> r.error == NotFound(id)
  {
    if Has(c, id) then Success(PhpArray.Get(c.entries, KeyOf(id)).value.payload)
    else Failure(NotFound(id))
  }

  /** A decimal numeral is coerced to the integer it denotes. */
  lemma NumericIdIsIntegerKey(n: nat)
    ensures KeyOf(PhpString.DecimalString(n)) == IntKey(n)
  {
    var s := PhpString.DecimalString(n);
    PhpString.DecimalRoundTrip(n);
    LeadingDigitNonZero(n);
  }

  /** A formatted number has no leading zero, unless it is "0". */
  lemma {:induction false} LeadingDigitNonZero(n: nat)
    ensures PhpString.DecimalString(n)[0] == '0' ==> n == 0
    decreases n
  {
    if n >= 10 {
      LeadingDigitNonZero(n / 10);
    }
  }

  /**
   * A well-formed array registering service `id` with a non-null value
   * serves exactly that value, and `has` agrees.
   */
  lemma {:induction false} RegisteredServiceServed<T>(entries: Entries<T>, className: string, i: int)
    requires PhpArray.WellFormed(entries) && 0 <= i < |entries|
    requires entries[i].1.Val? && !IsList(entries)
    ensures var r := New(entries, className);
      && r.Success?
      && forall id :: KeyOf(id) == entries[i].0 ==>
        Has(r.value, id) && Get(r.value, id) == Success(entries[i].1.payload)
  {
    PhpArray.GetAt(entries, i);
  }

  /** A `null` entry is reported absent, and `get` raises not-found for it. */
  lemma NullEntryIsAbsent<T>(c: Container<T>, id: string)
    requires PhpArray.Get(c.entries, KeyOf(id)) == Some(Null)
    ensures !Has(c, id) && Get(c, id) == Failure(NotFound(id))
    ensures Message(Get(c, id).error) == "Service '" + id + "' not found."
  {
  }

  /** An id missing from the array is not found. */
  lemma MissingIdNotFound<T>(c: Container<T>, id: string)
    requires KeyOf(id) !in PhpArray.Keys(c.entries)
    ensures !Has(c, id) && Get(c, id).Failure?
  {
  }

  /**
   * The empty array is accepted and serves nothing; a single service
   * registered under the id "0" is a list and is refused.
   */
  lemma ConstructorEdgeCases<T>(service: T, className: string)
    ensures var empty := New<T>([], className);
      empty.Success? && forall id :: !Has(empty.value, id)
    ensures var zero: Entries<T> := [(KeyOf("0"), Val(service))];
      New(zero, className) == Failure(NotAssociative(className))
  {
    assert CanonicalDecimal("0");
    assert PhpString.DecimalValue("0") == 0 by {
      assert "0"[..0] == [];
    }
  }

  /**
   * The fixtures of the container's own suite: a list of two services is
   * refused, and `['foo' => 'bar']` serves "bar" under "foo".
   */
  lemma Fixtures<T>(foo: T, bar: T, className: string)
    ensures New([(IntKey(0), Val(foo)), (IntKey(1), Val(bar))], className).Failure?
    ensures var r := New([(KeyOf("foo"), Val(bar))], className);
      r.Success? && Has(r.value, "foo") && Get(r.value, "foo") == Success(bar)
  {
    assert !CanonicalDecimal("foo") by {
      assert !('0' <= "foo"[0] <= '9');
    }
  }

  /** Two string ids name the same entry exactly when they are equal, for ids that are not numerals. */
  lemma StringIdsDistinct(a: string, b: string)
    requires KeyOf(a).StrKey? && KeyOf(b).StrKey?
    ensures KeyOf(a) == KeyOf(b) <==> a == b
  {
  }
}

=== FILE: fake_logger.dfy ===
/**
 * The two `FakeLogger` classes: PSR-3 loggers that keep every call as the
 * line `[LEVEL] message context`, in the order of the calls. One exposes the
 * lines as `$messages` and `all()`, the other as `$output`.
 *
 * `json_encode` is not modelled: the encoder of the context is a parameter,
 * and where a property depends on it, the only fact assumed of it is that it
 * writes the empty array as "[]".
 */
module FakeLogger {
  import opened Wrappers
  import opened PhpValue
  import PhpArray
  import PhpString

  /** A `$context` array; its values are whatever the caller passes. */
  type Context<C> = PhpArray.Assoc<ArrayKey, C>

  /** The eight levels of `Psr\Log\LogLevel`, which `AbstractLogger`'s shortcuts pass to `log`. */
  datatype Level = Emergency | Alert | Critical | Error | Warning | Notice | Info | Debug

  /** The `LogLevel` constant: the level's name in lower case. */
  function LevelName(l: Level): string {
    match l
    case Emergency => "emergency"
    case Alert => "alert"
    case Critical => "critical"
    case Error => "error"
    case Warning => "warning"
    case Notice => "notice"
    case Info => "info"
    case Debug => "debug"
  }

  /** The level's name as it appears in a logged line. */
  function LevelTag(l: Level): string {
    match l
    case Emergency => "EMERGENCY"
    case Alert => "ALERT"
    case Critical => "CRITICAL"
    case Error => "ERROR"
    case Warning => "WARNING"
    case Notice => "NOTICE"
    case Info => "INFO"
    case Debug => "DEBUG"
  }

  /** The level a tag stands for, if any. */
  function LevelOfTag(tag: string): Option<Level> {
    if tag == "EMERGENCY" then Some(Emergency)
    else if tag == "ALERT" then Some(Alert)
    else if tag == "CRITICAL" then Some(Critical)
    else if tag == "ERROR" then Some(Error)
    else if tag == "WARNING" then Some(Warning)
    else if tag == "NOTICE" then Some(Notice)
    else if tag == "INFO" then Some(Info)
    else if tag == "DEBUG" then Some(Debug)
    else None
  }

  /** Each tag names its own level back. */
  lemma LevelOfTagRoundTrip(l: Level)
    ensures LevelOfTag(LevelTag(l)) == Some(l)
    ensures ']' !in LevelName(l)
  {
  }

  /** One call to `log($level, $message, $context)`; a `Stringable` message is its string. */
  datatype Call<C> = Call(level: string, message: string, context: Context<C>)

  /** `sprintf("[%s] %s %s", strtoupper($level), $message, json_encode($context))`. */
  function Format<C>(call: Call<C>, encode: Context<C> -> string): (line: string)
    ensures |line| == |call.level| + |call.message| + |encode(call.context)| + 4
    ensures line[0] == '[' && line[1..|call.level| + 1] == PhpString.Upper(call.level)
    ensures line[|call.level| + 1..|call.level| + 3] == "] "
    ensures line[|call.level| + 3..] == call.message + " " + encode(call.context)
  {
    "[" + PhpString.Upper(call.level) + "] " + call.message + " " + encode(call.context)
  }

  /** The logger of the library: `$messages`, read back by `all()`. */
  datatype PsrLogger = PsrLogger(messages: seq<string>)

  /** The logger of the test suite: `$output`. */
  datatype TestLogger = TestLogger(output: seq<string>)

  /** Both loggers start with nothing recorded. */
  function NewPsrLogger(): (l: PsrLogger)
    ensures All(l) == []
  {
    PsrLogger([])
  }

  function NewTestLogger(): (l: TestLogger)
    ensures l.output == []
  {
    TestLogger([])
  }

  /** `FakeLogger::log` of the library: one more line, after the earlier ones. */
  function LogPsr<C>(l: PsrLogger, call: Call<C>, encode: Context<C> -> string): (r: PsrLogger)
    ensures |All(r)| == |All(l)| + 1
    ensures All(r)[..|All(l)|] == All(l) && All(r)[|All(l)|] == Format(call, encode)
  {
    PsrLogger(l.messages + [Format(call, encode)])
  }

  /** `FakeLogger::log` of the test suite, with the same line format. */
  function LogTest<C>(l: TestLogger, call: Call<C>, encode: Context<C> -> string): (r: TestLogger)
    ensures |r.output| == |l.output| + 1
    ensures r.output[..|l.output|] == l.output && r.output[|l.output|] == Format(call, encode)
  {
    TestLogger(l.output + [Format(call, encode)])
  }

  /** `all()`. */
  function All(l: PsrLogger): seq<string> {
    l.messages
  }

  /** A sequence of calls to the library's logger, first to last. */
  function ReplayPsr<C>(l: PsrLogger, calls: seq<Call<C>>, encode: Context<C> -> string): PsrLogger
    decreases |calls|
  {
    if |calls| == 0 then l
    else ReplayPsr(LogPsr(l, calls[0], encode), calls[1..], encode)
  }

  /** A sequence of calls to the test suite's logger, first to last. */
  function ReplayTest<C>(l: TestLogger, calls: seq<Call<C>>, encode: Context<C> -> string): TestLogger
    decreases |calls|
  {
    if |calls| == 0 then l
    else ReplayTest(LogTest(l, calls[0], encode), calls[1..], encode)
  }

  /**
   * After any sequence of calls, `all()` holds what it held before followed
   * by one formatted line per call, in call order: nothing is dropped,
   * merged or reordered.
   */
  lemma {:induction false} ReplayPsrRecordsEveryCall<C>(l: PsrLogger, calls: seq<Call<C>>, encode: Context<C> -> string)
    ensures All(ReplayPsr(l, calls, encode))
      == All(l) + seq(|calls|, i requires 0 <= i < |calls| => Format(calls[i], encode))
    decreases |calls|
  {
    var lines := seq(|calls|, i requires 0 <= i < |calls| => Format(calls[i], encode));
    if |calls| == 0 {
      assert lines == [];
    } else {
      var next := LogPsr(l, calls[0], encode);
      ReplayPsrRecordsEveryCall(next, calls[1..], encode);
      var rest := seq(|calls| - 1, i requires 0 <= i < |calls| - 1 => Format(calls[1..][i], encode));
      assert lines == [Format(calls[0], encode)] + rest;
    }
  }

  /** The two copies record the same lines for the same calls. */
  lemma {:induction false} CopiesAgree<C>(calls: seq<Call<C>>, encode: Context<C> -> string, before: seq<string>)
    ensures All(ReplayPsr(PsrLogger(before), calls, encode)) == ReplayTest(TestLogger(before), calls, encode).output
    decreases |calls|
  {
    if |calls| > 0 {
      CopiesAgree(calls[1..], encode, before + [Format(calls[0], encode)]);
    }
  }

  /** `strtoupper` of a PSR-3 level gives its tag. */
  lemma UpperLevel(l: Level)
    ensures PhpString.Upper(LevelName(l)) == LevelTag(l)
  {
    var s := LevelName(l);
    var u := PhpString.Upper(s);
    assert |u| == |LevelTag(l)|;
    forall i | 0 <= i < |s|
      ensures u[i] == LevelTag(l)[i]
    {
    }
  }

  /**
   * A call with no context through a shortcut such as `info()` is the line
   * "[INFO] message []", given an encoder that writes the empty array as "[]".
   */
  lemma ShortcutWithoutContext<C>(l: Level, message: string, encode: Context<C> -> string)
    requires encode([]) == "[]"
    ensures Format(Call(LevelName(l), message, []), encode) == "[" + LevelTag(l) + "] " + message + " []"
  {
    UpperLevel(l);
  }

  /** The text between the opening `[` of a line and the first `]` after it. */
  function TagOf(line: string): string {
    if |line| > 0 && line[0] == '[' then UpTo(line[1..], ']') else ""
  }

  /** The longest prefix of `s` without `c`. */
  function UpTo(s: string, c: char): (r: string)
    ensures |r| <= |s| && r == s[..|r|] && c !in r
  {
    if |s| == 0 || s[0] == c then "" else [s[0]] + UpTo(s[1..], c)
  }

  lemma {:induction false} UpToStopsAtFirst(t: string, c: char, rest: string)
    requires c !in t
    ensures UpTo(t + [c] + rest, c) == t
  {
    if |t| > 0 {
      assert (t + [c] + rest)[1..] == t[1..] + [c] + rest;
      UpToStopsAtFirst(t[1..], c, rest);
    }
  }

  /**
   * The level can be read back from a line: it is the text between the
   * brackets, upper-cased, whenever the level itself has no `]`.
   */
  lemma {:induction false} TagReadBack<C>(call: Call<C>, encode: Context<C> -> string)
    requires ']' !in call.level
    ensures TagOf(Format(call, encode)) == PhpString.Upper(call.level)
  {
    var u := PhpString.Upper(call.level);
    var rest := " " + call.message + " " + encode(call.context);
    assert ']' !in u by {
      forall i | 0 <= i < |u| ensures u[i] != ']' {
        assert u[i] == PhpString.UpperChar(call.level[i]);
      }
    }
    assert Format(call, encode)[1..] == u + "]" + rest;
    UpToStopsAtFirst(u, ']', rest);
  }

  /** Different PSR-3 levels give different lines, whatever message and context follow. */
  lemma LevelRecoverable<C>(a: Level, b: Level, m1: string, m2: string,
                            c1: Context<C>, c2: Context<C>, encode: Context<C> -> string)
    requires a != b
    ensures Format(Call(LevelName(a), m1, c1), encode) != Format(Call(LevelName(b), m2, c2), encode)
  {
    UpperLevel(a);
    UpperLevel(b);
    LevelOfTagRoundTrip(a);
    LevelOfTagRoundTrip(b);
    TagReadBack(Call(LevelName(a), m1, c1), encode);
    TagReadBack(Call(LevelName(b), m2, c2), encode);
  }
}

=== FILE: fake_simple_cache.dfy ===
/**
 * The PSR-16 cache fake (`FakeSimpleCache`): a map from key to a value and
 * an optional absolute expiration. Reading an entry whose expiration lies
 * strictly before `now` evicts it. The cache is a value; operations that
 * may evict return the new cache beside their answer. Every mutator of the
 * source returns the constant `true`, which the model does not carry.
 */
module FakeSimpleCache {
  import opened Wrappers
  import opened PhpValue
  import PhpArray

  datatype Entry<T> = Entry(value: Mixed<T>, expiration: Option<int>)

  datatype SimpleCache<T> = SimpleCache(items: map<string, Entry<T>>)

  /** The empty cache a fresh `FakeSimpleCache` starts as. */
  function Empty<T>(): (c: SimpleCache<T>)
    ensures forall now :: Live(c, now) == map[]
  {
    SimpleCache(map[])
  }

  /** An entry is stale once its expiration lies strictly before `now`. */
  predicate Expired<T>(e: Entry<T>, now: int) {
    e.expiration.Some? && e.expiration.value < now
  }

  /** What the cache serves at `now`: every entry that is not stale. */
  function Live<T>(c: SimpleCache<T>, now: int): map<string, Mixed<T>> {
    map k | k in c.items && !Expired(c.items[k], now) :: c.items[k].value
  }

  /** `normalizeTtl($ttl)` for integer TTLs: no expiration for `null`, else `now + ttl` seconds. */
  function NormalizeTtl(ttl: Option<int>, now: int): (e: Option<int>)
    ensures e.None? <==> ttl.None?
    ensures e.Some? ==> e.value - now == ttl.value
  {
    if ttl.None? then None else Some(now + ttl.value)
  }

  /** `get($key, $default)`: the live value, or the default; a stale entry is evicted. */
  function Get<T>(c: SimpleCache<T>, key: string, default: Mixed<T>, now: int): (r: (Mixed<T>, SimpleCache<T>))
    ensures r.0 == if key in Live(c, now) then Live(c, now)[key] else default
    ensures Live(r.1, now) == Live(c, now)
    ensures key in c.items && Expired(c.items[key], now) ==> r.1.items == c.items - {key}
    ensures !(key in c.items && Expired(c.items[key], now)) ==> r.1 == c
  {
    if key !in c.items then (default, c)
    else if Expired(c.items[key], now) then (default, SimpleCache(c.items - {key}))
    else (c.items[key].value, c)
  }

  /** `has($key)`: whether a live entry exists; a stale entry is evicted. */
  function Has<T>(c: SimpleCache<T>, key: string, now: int): (r: (bool, SimpleCache<T>))
    ensures r.0 <==> key in Live(c, now)
    ensures r.1 == Get(c, key, Null, now).1
  {
    if key !in c.items then (false, c)
    else if Expired(c.items[key], now) then (false, SimpleCache(c.items - {key}))
    else (true, c)
  }

  /** `set($key, $value, $ttl)`: store the value with its absolute expiration. */
  function Set<T>(c: SimpleCache<T>, key: string, v: Mixed<T>, ttl: Option<int>, now: int): (r: SimpleCache<T>)
    ensures key in r.items && r.items[key] == Entry(v, NormalizeTtl(ttl, now))
    ensures forall k :: k != key ==> (k in r.items <==> k in c.items)
    ensures forall k :: k != key && k in c.items ==> r.items[k] == c.items[k]
  {
    SimpleCache(c.items[key := Entry(v, NormalizeTtl(ttl, now))])
  }

  /** `delete($key)`: remove exactly that key. */
  function Delete<T>(c: SimpleCache<T>, key: string): (r: SimpleCache<T>)
    ensures r.items.Keys == c.items.Keys - {key}
    ensures forall k :: k in r.items ==> r.items[k] == c.items[k]
  {
    SimpleCache(c.items - {key})
  }

  /** `clear()`: empty the store. */
  function Clear<T>(c: SimpleCache<T>): (r: SimpleCache<T>)
    ensures forall now :: Live(r, now) == map[]
    ensures r.items == map[]
  {
    SimpleCache(map[])
  }

  /**
   * `getMultiple($keys, $default)`: `$result[$key] = get($key, $default)`
   * for each key in order, threading the evictions through.
   */
  function GetMultiple<T>(c: SimpleCache<T>, keys: seq<string>, default: Mixed<T>, now: int)
    : (r: (PhpArray.Assoc<string, Mixed<T>>, SimpleCache<T>))
    ensures Live(r.1, now) == Live(c, now)
    ensures r.0 == PhpArray.FromKeys(keys, k => Get(c, k, default, now).0)
    ensures r.1.items == c.items - Stale(c, keys, now)
    decreases |keys|
  {
    if |keys| == 0 then ([], c)
    else
      var front := GetMultiple(c, keys[..|keys| - 1], default, now);
      var k := keys[|keys| - 1];
      var got := Get(front.1, k, default, now);
      EvictStep(c, front.1, keys, default, now);
      (PhpArray.Put(front.0, k, got.0), got.1)
  }

  /** The requested keys whose entries are stale at `now`: the ones a batch of reads evicts. */
  function Stale<T>(c: SimpleCache<T>, keys: seq<string>, now: int): set<string> {
    set k | k in keys && k in c.items && Expired(c.items[k], now)
  }

  /** Reading one more key adds that key to the stale set when its entry is stale. */
  lemma StaleSnoc<T>(c: SimpleCache<T>, keys: seq<string>, now: int)
    requires |keys| > 0
    ensures var k := keys[|keys| - 1];
      Stale(c, keys, now) == Stale(c, keys[..|keys| - 1], now)
        + (if k in c.items && Expired(c.items[k], now) then {k} else {})
  {
    assert keys == keys[..|keys| - 1] + [keys[|keys| - 1]];
  }

  /** One more read after reading all but the last key evicts exactly the stale keys among them all. */
  lemma EvictStep<T>(c: SimpleCache<T>, front: SimpleCache<T>, keys: seq<string>, default: Mixed<T>, now: int)
    requires |keys| > 0 && front.items == c.items - Stale(c, keys[..|keys| - 1], now)
    ensures Get(front, keys[|keys| - 1], default, now).1.items == c.items - Stale(c, keys, now)
  {
    StaleSnoc(c, keys, now);
  }

  /** `setMultiple($values, $ttl)`: `set` each pair in iteration order. */
  function SetMultiple<T>(c: SimpleCache<T>, values: seq<(string, Mixed<T>)>, ttl: Option<int>, now: int): (r: SimpleCache<T>)
    ensures r.items.Keys == c.items.Keys + set i | 0 <= i < |values| :: values[i].0
    ensures forall k :: k in c.items && (forall i :: 0 <= i < |values| ==> values[i].0 != k) ==> r.items[k] == c.items[k]
    decreases |values|
  {
    if |values| == 0 then c
    else SetMultiple(Set(c, values[0].0, values[0].1, ttl, now), values[1..], ttl, now)
  }

  /** `deleteMultiple($keys)`: `delete` each key in iteration order. */
  function DeleteMultiple<T>(c: SimpleCache<T>, keys: seq<string>): (r: SimpleCache<T>)
    ensures r.items.Keys == c.items.Keys - set k | k in keys
    ensures forall k :: k in r.items ==> r.items[k] == c.items[k]
    decreases |keys|
  {
    if |keys| == 0 then c
    else DeleteMultiple(Delete(c, keys[0]), keys[1..])
  }

  /**
   * A value `set` with a TTL is served while its expiration has not passed:
   * still at `now + ttl` itself, and then never again.
   */
  lemma SetThenGet<T>(c: SimpleCache<T>, key: string, v: Mixed<T>, ttl: Option<int>, now: int, later: int, default: Mixed<T>)
    ensures Get(Set(c, key, v, ttl, now), key, default, later).0
      == if ttl.None? || later <= now + ttl.value then v else default
  {
  }

  /** `getMultiple` answers each requested key once, in first-request order, exactly as `get` would. */
  lemma GetMultipleAnswersEachKey<T>(c: SimpleCache<T>, keys: seq<string>, default: Mixed<T>, now: int)
    ensures var r := GetMultiple(c, keys, default, now).0;
      && PhpArray.WellFormed(r)
      && PhpArray.Keys(r) == PhpArray.Dedup(keys)
      && forall k :: k in keys ==> PhpArray.Get(r, k) == Some(Get(c, k, default, now).0)
  {
    PhpArray.FromKeysSpec(keys, k => Get(c, k, default, now).0);
  }

  /** The value the last pair for `key` carries, if any pair does. */
  function LastWrite<T>(values: seq<(string, Mixed<T>)>, key: string): (r: Option<Mixed<T>>)
    ensures r.None? <==> forall i :: 0 <= i < |values| ==> values[i].0 != key
    ensures r.Some? ==> exists i :: (0 <= i < |values| && values[i] == (key, r.value)
                                     && forall j :: i < j < |values| ==> values[j].0 != key)
    decreases |values|
  {
    if |values| == 0 then None
    else
      var later := LastWrite(values[1..], key);
      assert forall i :: 1 <= i < |values| ==> values[i] == values[1..][i - 1];
      if later.Some? then later
      else if values[0].0 == key then Some(values[0].1)
      else None
  }

  /**
   * `setMultiple` leaves under each written key the last value written for
   * it, with the expiration `ttl` gives; other keys keep their entries.
   */
  lemma {:induction false} SetMultipleLastWriteWins<T>(c: SimpleCache<T>, values: seq<(string, Mixed<T>)>, ttl: Option<int>, now: int, key: string)
    ensures var r := SetMultiple(c, values, ttl, now);
      match LastWrite(values, key)
      case Some(v) => key in r.items && r.items[key] == Entry(v, NormalizeTtl(ttl, now))
      case None => (key in r.items <==> key in c.items) && (key in c.items ==> r.items[key] == c.items[key])
    decreases |values|
  {
    if |values| > 0 {
      SetMultipleLastWriteWins(Set(c, values[0].0, values[0].1, ttl, now), values[1..], ttl, now, key);
    }
  }

  /** `delete` and `deleteMultiple` take exactly the named keys out of what is served. */
  lemma DeleteRemovesFromLive<T>(c: SimpleCache<T>, key: string, keys: seq<string>, now: int)
    ensures Live(Delete(c, key), now) == Live(c, now) - {key}
    ensures Live(DeleteMultiple(c, keys), now) == Live(c, now) - set k | k in keys
  {
  }
}

=== FILE: php_array.dfy ===
/**
 * PHP arrays as ordered association lists. Writing `$a[$k] = $v` keeps the
 * position of an existing key and appends a new one, so an array built by a
 * `foreach` loop lists its keys in first-occurrence order.
 */
module PhpArray {
  import opened Wrappers

  /** An ordered list of (key, value) pairs. */
  type Assoc<K, V> = seq<(K, V)>

  /** The keys of `a`, in order. */
  function Keys<K, V>(a: Assoc<K, V>): (ks: seq<K>)
    ensures |ks| == |a|
  {
    if |a| == 0 then [] else [a[0].0] + Keys(a[1..])
  }

  /** No element of `ks` occurs twice. */
  predicate Distinct<K(==)>(ks: seq<K>) {
    forall i, j :: 0 <= i < j < |ks| ==> ks[i] != ks[j]
  }

  /** A genuine PHP array: every key occurs once. */
  predicate WellFormed<K(==), V>(a: Assoc<K, V>) {
    Distinct(Keys(a))
  }

  /** `$a[$k] ?? none`: the value stored under `k`, if any. */
  function Get<K(==,!new), V>(a: Assoc<K, V>, k: K): (r: Option<V>)
    ensures r.None? <==> k !in Keys(a)
    ensures r.Some? ==> (k, r.value) in a
  {
    if |a| == 0 then None
    else if a[0].0 == k then Some(a[0].1)
    else Get(a[1..], k)
  }

  /** `$a[$k] = $v`: overwrite in place, or append a new key at the end. */
  function Put<K(==,!new), V>(a: Assoc<K, V>, k: K, v: V): (r: Assoc<K, V>)
    ensures Get(r, k) == Some(v)
    ensures forall k' :: k' != k ==> Get(r, k') == Get(a, k')
  {
    if |a| == 0 then [(k, v)]
    else if a[0].0 == k then
      assert ([(k, v)] + a[1..])[1..] == a[1..];
      [(k, v)] + a[1..]
    else
      var rest := Put(a[1..], k, v);
      assert ([a[0]] + rest)[1..] == rest;
      [a[0]] + rest
  }

  /** Writing an existing key keeps the key order; writing a new key appends it. */
  lemma {:induction false} PutKeys<K(!new), V>(a: Assoc<K, V>, k: K, v: V)
    ensures k in Keys(a) ==> Keys(Put(a, k, v)) == Keys(a)
    ensures k !in Keys(a) ==> Keys(Put(a, k, v)) == Keys(a) + [k]
  {
    if |a| == 0 {
    } else if a[0].0 == k {
      assert Put(a, k, v)[1..] == a[1..];
    } else {
      var rest := Put(a[1..], k, v);
      assert Put(a, k, v) == [a[0]] + rest;
      assert Put(a, k, v)[1..] == rest;
      PutKeys(a[1..], k, v);
    }
  }

  /** Writing one key keeps the keys of a well-formed array distinct. */
  lemma PutWellFormed<K(!new), V>(a: Assoc<K, V>, k: K, v: V)
    requires WellFormed(a)
    ensures WellFormed(Put(a, k, v))
  {
    PutKeys(a, k, v);
    if k !in Keys(a) {
      DistinctAppend(Keys(a), k);
    }
  }

  /** Dropping the first pair of a well-formed array leaves a well-formed array without its key. */
  lemma WellFormedTail<K(!new), V>(a: Assoc<K, V>)
    requires WellFormed(a) && |a| > 0
    ensures WellFormed(a[1..]) && a[0].0 !in Keys(a[1..])
  {
    var ks, rest := Keys(a), Keys(a[1..]);
    assert ks == [a[0].0] + rest;
    assert ks[0] == a[0].0;
    forall i, j | 0 <= i < j < |rest|
      ensures rest[i] != rest[j]
    {
      assert rest[i] == ks[i + 1] && rest[j] == ks[j + 1];
    }
    forall i | 0 <= i < |rest|
      ensures rest[i] != a[0].0
    {
      assert rest[i] == ks[i + 1];
    }
  }

  lemma DistinctAppend<K>(ks: seq<K>, k: K)
    requires Distinct(ks) && k !in ks
    ensures Distinct(ks + [k])
  {
  }

  /** `ks` without repetitions, each element kept at its first occurrence. */
  function Dedup<K(==,!new)>(ks: seq<K>): (r: seq<K>)
    ensures Distinct(r)
    ensures forall k :: k in r <==> k in ks
  {
    if |ks| == 0 then []
    else
      var d := Dedup(ks[..|ks| - 1]);
      assert ks == ks[..|ks| - 1] + [ks[|ks| - 1]];
      if ks[|ks| - 1] in d then d else d + [ks[|ks| - 1]]
  }

  /** The `i`-th key is the key of the `i`-th pair. */
  lemma {:induction false} KeysAt<K, V>(a: Assoc<K, V>, i: int)
    requires 0 <= i < |a|
    ensures Keys(a)[i] == a[i].0
  {
    if i > 0 {
      KeysAt(a[1..], i - 1);
    }
  }

  /** In a well-formed array, looking up the `i`-th key finds the `i`-th value. */
  lemma {:induction false} GetAt<K(!new), V>(a: Assoc<K, V>, i: int)
    requires WellFormed(a)
    requires 0 <= i < |a|
    ensures Get(a, a[i].0) == Some(a[i].1)
  {
    if i > 0 {
      KeysAt(a, 0);
      KeysAt(a, i);
      assert Keys(a[1..]) == Keys(a)[1..];
      GetAt(a[1..], i - 1);
    }
  }

  /** A key is looked up successfully exactly when some pair carries it. */
  lemma InKeys<K(!new), V>(a: Assoc<K, V>, k: K)
    ensures k in Keys(a) <==> exists i :: 0 <= i < |a| && a[i].0 == k
  {
    if k in Keys(a) {
      var i :| 0 <= i < |Keys(a)| && Keys(a)[i] == k;
      KeysAt(a, i);
    }
    if exists i :: 0 <= i < |a| && a[i].0 == k {
      var i :| 0 <= i < |a| && a[i].0 == k;
      KeysAt(a, i);
    }
  }
  /** `foreach ($keys as $k) { $a[$k] = f($k); }` starting from an empty array. */
  function FromKeys<K(==,!new), V>(keys: seq<K>, f: K -> V): (r: Assoc<K, V>)
    decreases |keys|
  {
    if |keys| == 0 then []
    else Put(FromKeys(keys[..|keys| - 1], f), keys[|keys| - 1], f(keys[|keys| - 1]))
  }

  /**
   * The array built from a key list holds each requested key once, in
   * first-request order, with the value computed for it.
   */
  lemma {:induction false} FromKeysSpec<K(!new), V>(keys: seq<K>, f: K -> V)
    ensures WellFormed(FromKeys(keys, f))
    ensures Keys(FromKeys(keys, f)) == Dedup(keys)
    ensures forall k :: k in keys ==> Get(FromKeys(keys, f), k) == Some(f(k))
  {
    FromKeysKeys(keys, f);
    FromKeysValues(keys, f);
  }

  /** The keys of the built array are the requested keys, once each, in first-request order. */
  lemma {:induction false} FromKeysKeys<K(!new), V>(keys: seq<K>, f: K -> V)
    ensures WellFormed(FromKeys(keys, f)) && Keys(FromKeys(keys, f)) == Dedup(keys)
    decreases |keys|
  {
    if |keys| > 0 {
      var front := keys[..|keys| - 1];
      var k := keys[|keys| - 1];
      var acc := FromKeys(front, f);
      FromKeysKeys(front, f);
      PutKeys(acc, k, f(k));
      PutWellFormed(acc, k, f(k));
    }
  }

  /** Every requested key maps to the value computed for it. */
  lemma {:induction false} FromKeysValues<K(!new), V>(keys: seq<K>, f: K -> V)
    ensures forall k :: k in keys ==> Get(FromKeys(keys, f), k) == Some(f(k))
    decreases |keys|
  {
    if |keys| > 0 {
      var front := keys[..|keys| - 1];
      var k := keys[|keys| - 1];
      FromKeysValues(front, f);
      assert keys == front + [k];
    }
  }

  /**
   * `foreach ($a as $k => $x) { $b[$k] = f($x); }` over a well-formed
   * array: the same keys, in the same order, each value transformed.
   */
  function MapValues<K, V, W>(a: Assoc<K, V>, f: V -> W): (r: Assoc<K, W>)
    ensures Keys(r) == Keys(a)
    decreases |a|
  {
    if |a| == 0 then [] else [(a[0].0, f(a[0].1))] + MapValues(a[1..], f)
  }

  /** Transforming the values commutes with writing one more key. */
  lemma {:induction false} MapValuesPut<K(!new), V, W>(a: Assoc<K, V>, k: K, v: V, f: V -> W)
    ensures MapValues(Put(a, k, v), f) == Put(MapValues(a, f), k, f(v))
    decreases |a|
  {
    if |a| == 0 {
    } else if a[0].0 == k {
      assert Put(a, k, v) == [(k, v)] + a[1..];
      assert Put(a, k, v)[1..] == a[1..];
    } else {
      assert Put(a, k, v) == [a[0]] + Put(a[1..], k, v);
      assert Put(a, k, v)[1..] == Put(a[1..], k, v);
      MapValuesPut(a[1..], k, v, f);
    }
  }

  /** Building from keys and then transforming is building with the composed function. */
  lemma {:induction false} MapValuesFromKeys<K(!new), V, W>(keys: seq<K>, g: K -> V, f: V -> W, h: K -> W)
    requires forall k :: h(k) == f(g(k))
    ensures MapValues(FromKeys(keys, g), f) == FromKeys(keys, h)
    decreases |keys|
  {
    if |keys| > 0 {
      var front := keys[..|keys| - 1];
      var k := keys[|keys| - 1];
      MapValuesFromKeys(front, g, f, h);
      MapValuesPut(FromKeys(front, g), k, g(k), f);
    }
  }
}

=== FILE: php_string.dfy ===
/**
 * The PHP string functions the model relies on: `str_replace` with array
 * arguments, byte-wise `strtoupper`, `dirname`, and `%d` formatting of a
 * non-negative integer.
 */
module PhpString {

  /** `pat` occurs in `s` starting at index `i`. */
  predicate OccursAt(s: string, pat: string, i: int) {
    0 <= i && i + |pat| <= |s| && s[i..i + |pat|] == pat
  }

  /** `pat` occurs somewhere in `s`. */
  predicate Occurs(s: string, pat: string) {
    exists i :: 0 <= i <= |s| && OccursAt(s, pat, i)
  }

  /**
   * `str_replace($pat, $rep, $s)`: scan left to right and replace every
   * non-overlapping occurrence; an empty search string replaces nothing.
   */
  function ReplaceAll(s: string, pat: string, rep: string): (r: string)
    ensures |pat| == 0 ==> r == s
    ensures |rep| == |pat| ==> |r| == |s|
    decreases |s|
  {
    if |pat| == 0 || |s| < |pat| then s
    else if s[..|pat|] == pat then rep + ReplaceAll(s[|pat|..], pat, rep)
    else [s[0]] + ReplaceAll(s[1..], pat, rep)
  }

  /** A subject the pattern does not occur in comes back unchanged. */
  lemma {:induction false} ReplaceAllAbsent(s: string, pat: string, rep: string)
    requires !Occurs(s, pat)
    ensures ReplaceAll(s, pat, rep) == s
    decreases |s|
  {
    if |pat| > 0 && |s| >= |pat| {
      assert !OccursAt(s, pat, 0);
      forall i | OccursAt(s[1..], pat, i)
        ensures false
      {
        assert s[1..][i..i + |pat|] == s[i + 1..i + 1 + |pat|];
        assert OccursAt(s, pat, i + 1);
      }
      ReplaceAllAbsent(s[1..], pat, rep);
    }
  }

  /**
   * The leftmost occurrence is the one replaced, and the scan resumes right
   * after it: with `pat` first occurring at `|a|`, the result is `a`, then
   * `rep`, then the replacement of the rest.
   */
  lemma {:induction false} ReplaceAllLeftmost(a: string, pat: string, b: string, rep: string)
    requires |pat| > 0
    requires forall i :: 0 <= i < |a| ==> !OccursAt(a + pat + b, pat, i)
    ensures ReplaceAll(a + pat + b, pat, rep) == a + rep + ReplaceAll(b, pat, rep)
    decreases |a|
  {
    var s := a + pat + b;
    if |a| == 0 {
      assert s == pat + b;
      assert s[..|pat|] == pat;
      assert s[|pat|..] == b;
    } else {
      var t := a[1..] + pat + b;
      assert s[1..] == t;
      assert !OccursAt(s, pat, 0);
      assert s[..|pat|] != pat;
      assert ReplaceAll(s, pat, rep) == [s[0]] + ReplaceAll(t, pat, rep);
      NoEarlierOccurrence(a, pat, b);
      ReplaceAllLeftmost(a[1..], pat, b, rep);
      assert s[0] == a[0];
      assert [a[0]] + a[1..] == a;
    }
  }

  lemma NoEarlierOccurrence(a: string, pat: string, b: string)
    requires |a| > 0
    requires forall i :: 0 <= i < |a| ==> !OccursAt(a + pat + b, pat, i)
    ensures forall i :: 0 <= i < |a[1..]| ==> !OccursAt(a[1..] + pat + b, pat, i)
  {
    var s := a + pat + b;
    var t := a[1..] + pat + b;
    assert t == s[1..];
    forall i | 0 <= i < |a[1..]|
      ensures !OccursAt(t, pat, i)
    {
      assert !OccursAt(s, pat, i + 1);
      assert i + 1 + |pat| <= |s|;
      assert s[i + 1..i + 1 + |pat|] == t[i..i + |pat|];
    }
  }

  /** Replacing a string by itself changes nothing. */
  lemma {:induction false} ReplaceAllSelf(s: string, pat: string)
    ensures ReplaceAll(s, pat, pat) == s
    decreases |s|
  {
    if |pat| > 0 && |s| >= |pat| {
      if s[..|pat|] == pat {
        ReplaceAllSelf(s[|pat|..], pat);
        assert s == s[..|pat|] + s[|pat|..];
      } else {
        ReplaceAllSelf(s[1..], pat);
        assert s == [s[0]] + s[1..];
      }
    }
  }

  /**
   * `str_replace(array_keys($pairs), array_values($pairs), $s)`: each pair
   * is applied in order to the whole result of the pairs before it.
   */
  function StrReplace(s: string, pairs: seq<(string, string)>): (r: string)
    ensures (forall i :: 0 <= i < |pairs| ==> |pairs[i].0| == |pairs[i].1|) ==> |r| == |s|
    ensures (forall i :: 0 <= i < |pairs| ==> pairs[i].0 == pairs[i].1) ==> r == s
    decreases |pairs|
  {
    if |pairs| == 0 then s
    else
      ReplaceAllSelf(s, pairs[0].0);
      assert forall i :: 1 <= i < |pairs| ==> pairs[i] == pairs[1..][i - 1];
      StrReplace(ReplaceAll(s, pairs[0].0, pairs[0].1), pairs[1..])
  }

  /** Replacing with a concatenated list is replacing with the first list, then the second. */
  lemma {:induction false} StrReplaceSequential(s: string, first: seq<(string, string)>, second: seq<(string, string)>)
    ensures StrReplace(s, first + second) == StrReplace(StrReplace(s, first), second)
    decreases |first|
  {
    if |first| == 0 {
      assert first + second == second;
    } else {
      assert (first + second)[0] == first[0];
      assert (first + second)[1..] == first[1..] + second;
      StrReplaceSequential(ReplaceAll(s, first[0].0, first[0].1), first[1..], second);
    }
  }

  /** `strtoupper` on one character: ASCII letters only (the behaviour since PHP 8.2). */
  function UpperChar(c: char): char {
    if 'a' <= c <= 'z' then (c as int - 'a' as int + 'A' as int) as char else c
  }

  /** `strtoupper($s)`: the same length, lower-case ASCII letters raised, everything else kept. */
  function Upper(s: string): (r: string)
    ensures |r| == |s|
    ensures forall i :: 0 <= i < |s| ==> r[i] == UpperChar(s[i])
    ensures forall i :: 0 <= i < |s| ==> !('a' <= r[i] <= 'z')
  {
    seq(|s|, i requires 0 <= i < |s| => UpperChar(s[i]))
  }

  /** `s` with its trailing slashes removed. */
  function TrimSlashes(s: string): (r: string)
    ensures r <= s
    ensures |r| > 0 ==> r[|r| - 1] != '/'
    ensures forall i :: |r| <= i < |s| ==> s[i] == '/'
  {
    if |s| == 0 || s[|s| - 1] != '/' then s else TrimSlashes(s[..|s| - 1])
  }

  /** `s` with its last path component (the trailing run of non-slash characters) removed. */
  function TrimName(s: string): (r: string)
    ensures r <= s
    ensures |r| > 0 ==> r[|r| - 1] == '/'
    ensures forall i :: |r| <= i < |s| ==> s[i] != '/'
    ensures '/' in s ==> |r| > 0
  {
    if |s| == 0 || s[|s| - 1] == '/' then s else TrimName(s[..|s| - 1])
  }

  /**
   * `dirname($p)`: drop trailing slashes, the last component and the
   * slashes before it; a path of slashes only gives "/", a path without a
   * slash gives ".", and the empty path stays empty.
   */
  function Dirname(p: string): (r: string)
    ensures r == "" <==> p == ""
    ensures p != "" && |TrimSlashes(p)| == 0 ==> r == "/"
    ensures |TrimSlashes(p)| > 0 && '/' !in TrimSlashes(p) ==> r == "."
    ensures r != "" && r != "." && r != "/" ==> r < p && p[|r|] == '/' && r[|r| - 1] != '/'
    // Otherwise `r` is a prefix of the path without its trailing slashes,
    // followed there by a run of slashes and then a last component with none.
    ensures var a := TrimSlashes(p);
      '/' in a ==> && r <= a && |r| < |a|
                   && (r == "/" || r[|r| - 1] != '/')
                   && (forall i, j :: |r| <= i <= j < |a| && a[i] != '/' ==> a[j] != '/')
  {
    if |p| == 0 then ""
    else
      var a := TrimSlashes(p);
      if |a| == 0 then "/"
      else
        var b := TrimName(a);
        if |b| == 0 then "."
        else
          var c := TrimSlashes(b);
          if |c| == 0 then "/" else c
  }

  /** The decimal digit for `d`. */
  function Digit(d: nat): char
    requires d < 10
  {
    "0123456789"[d]
  }

  /** `sprintf('%d', $n)` for a non-negative `n`. */
  function DecimalString(n: nat): (r: string)
    ensures |r| > 0
    ensures forall i :: 0 <= i < |r| ==> '0' <= r[i] <= '9'
    decreases n
  {
    if n < 10 then [Digit(n)] else DecimalString(n / 10) + [Digit(n % 10)]
  }

  /** The value of a string of decimal digits. */
  function DecimalValue(s: string): nat
    requires forall i :: 0 <= i < |s| ==> '0' <= s[i] <= '9'
    decreases |s|
  {
    if |s| == 0 then 0
    else 10 * DecimalValue(s[..|s| - 1]) + (s[|s| - 1] as int - '0' as int)
  }

  /** Reading back a formatted number gives the number. */
  lemma {:induction false} DecimalRoundTrip(n: nat)
    ensures DecimalValue(DecimalString(n)) == n
    decreases n
  {
    var s := DecimalString(n);
    if n < 10 {
      assert s[..0] == [];
    } else {
      DecimalRoundTrip(n / 10);
      assert s[..|s| - 1] == DecimalString(n / 10);
    }
  }
}

=== FILE: php_value.dfy ===
/**
 * The PHP values the model needs to tell apart: `null`, and everything else,
 * which stays an opaque payload of a type chosen by the caller.
 */
module PhpValue {

  /** A PHP `mixed`: either `null` or a non-null payload. */
  datatype Mixed<T> = Null | Val(payload: T)

  /** A PHP array key: arrays are keyed by integers or by strings. */
  datatype ArrayKey = IntKey(i: int) | StrKey(s: string)
}

=== FILE: reflection_helper.dfy ===
/**
 * `ReflectionHelper::instantiate`: build an object of a named class when its
 * constructor needs no arguments, and say why not otherwise.
 *
 * The classes the program knows are a table from name to what reflection
 * reports about them. The checks run in the order the helper makes them:
 * the class exists, then it is instantiable, then its constructor requires
 * no parameter.
 */
module ReflectionHelper {
  import opened Wrappers
  import PhpString

  /** What a declared name denotes; `class_exists` is true only for classes and enums. */
  datatype Kind = Concrete | Abstract | Interface | Trait | Enum

  datatype Constructor = Constructor(requiredParameters: nat, isPublic: bool)

  /** What `ReflectionClass` reports: the kind and the constructor, if the class declares or inherits one. */
  datatype ClassInfo = ClassInfo(kind: Kind, ctor: Option<Constructor>)

  type Classes = map<string, ClassInfo>

  /** The object `new $class()` returns. */
  datatype Instance = Instance(className: string)

  datatype InstantiateError =
    | ClassNotFound(className: string)
    | NotInstantiable(className: string)
    | RequiresParameters(className: string, count: nat)
      // PHP's `Error` for a method called on `null`
    | NullConstructorCall(className: string)

  function Message(e: InstantiateError): string {
    match e
    case ClassNotFound(c) => "Cannot instantiate '" + c + "': class not found."
    case NotInstantiable(c) =>
      "Cannot instantiate '" + c + "': class is not instantiable. Ensure the target is a concrete class."
    case RequiresParameters(c, n) =>
      "Cannot instantiate '" + c + "': constructor defines " + PhpString.DecimalString(n) + " required parameter(s)."
    case NullConstructorCall(_) => "Call to a member function getNumberOfRequiredParameters() on null"
  }

  /** `class_exists($class)`: interfaces and traits are not classes; enums are. */
  predicate ClassExists(classes: Classes, name: string) {
    name in classes && classes[name].kind in {Concrete, Abstract, Enum}
  }

  /** `ReflectionClass::isInstantiable()`: a concrete class whose constructor, if any, is public. */
  predicate IsInstantiable(info: ClassInfo) {
    info.kind == Concrete && (info.ctor.None? || info.ctor.value.isPublic)
  }

  /** The number of arguments `new` needs: none without a constructor. */
  function RequiredParameters(info: ClassInfo): nat {
    if info.ctor.None? then 0 else info.ctor.value.requiredParameters
  }

  /**
   * `instantiate($class)` as the helper is written: the constructor's
   * parameters are counted before the constructor is tested for `null`, so a
   * class without a constructor fails with PHP's null-call error.
   */
  function InstantiateAsWritten(classes: Classes, name: string): (r: Result<Instance, InstantiateError>)
    ensures r.Success? ==> (ClassExists(classes, name) && IsInstantiable(classes[name])
      && classes[name].ctor.Some? && RequiredParameters(classes[name]) == 0)
  {
    if !ClassExists(classes, name) then Failure(ClassNotFound(name))
    else if !IsInstantiable(classes[name]) then Failure(NotInstantiable(name))
    else match classes[name].ctor
      case None => Failure(NullConstructorCall(name))
      case Some(ctor) =>
        if ctor.requiredParameters == 0 then Success(Instance(name))
        else Failure(RequiresParameters(name, ctor.requiredParameters))
  }

  /**
   * `instantiate($class)` as intended: a class with no constructor, or one
   * whose parameters are all optional, is instantiated; each refusal names
   * the first check that failed.
   */
  function Instantiate(classes: Classes, name: string): (r: Result<Instance, InstantiateError>)
    ensures r.Success? <==> (ClassExists(classes, name) && IsInstantiable(classes[name])
      && RequiredParameters(classes[name]) == 0)
    ensures r.Success? ==> r.value == Instance(name)
    ensures r.Failure? ==> r.error.className == name && !r.error.NullConstructorCall?
    ensures r == Failure(ClassNotFound(name)) <==> !ClassExists(classes, name)
    ensures r == Failure(NotInstantiable(name)) <==>
      ClassExists(classes, name) && !IsInstantiable(classes[name])
    ensures r.Failure? && r.error.RequiresParameters? ==>
      r.error.count == RequiredParameters(classes[name]) > 0
  {
    if !ClassExists(classes, name) then Failure(ClassNotFound(name))
    else if !IsInstantiable(classes[name]) then Failure(NotInstantiable(name))
    else
      var n := RequiredParameters(classes[name]);
      if n == 0 then Success(Instance(name)) else Failure(RequiresParameters(name, n))
  }

  /** Wherever the class has a constructor, the helper as written and as intended agree. */
  lemma AsWrittenAgreesWithConstructor(classes: Classes, name: string)
    requires name in classes && classes[name].ctor.Some?
    ensures InstantiateAsWritten(classes, name) == Instantiate(classes, name)
  {
  }

  /** The two differ only on an instantiable class without a constructor. */
  lemma AsWrittenDiffersOnlyWithoutConstructor(classes: Classes, name: string)
    ensures InstantiateAsWritten(classes, name) != Instantiate(classes, name) <==>
      ClassExists(classes, name) && IsInstantiable(classes[name]) && classes[name].ctor.None?
  {
  }

  /**
   * The counterexample: a concrete class that declares no constructor is
   * rejected by the helper as written, while `new` needs no argument for it.
   */
  lemma ConstructorlessClassRejected()
    ensures var classes := map["Plain" := ClassInfo(Concrete, None)];
      && InstantiateAsWritten(classes, "Plain") == Failure(NullConstructorCall("Plain"))
      && Instantiate(classes, "Plain") == Success(Instance("Plain"))
  {
  }

  /**
   * The helper's own fixtures: a class whose constructor requires nothing is
   * instantiated; one whose constructor requires one parameter is refused
   * with the count in the message; an abstract class is not instantiable;
   * an undeclared name is not found.
   */
  lemma FixtureOutcomes()
    ensures var classes := map[
        "InstantiableClass" := ClassInfo(Concrete, Some(Constructor(0, true))),
        "NonInstantiableClass" := ClassInfo(Concrete, Some(Constructor(1, true))),
        "AbstractClass" := ClassInfo(Abstract, None)];
      && "NonExistentClass" !in classes
      && Instantiate(classes, "InstantiableClass") == Success(Instance("InstantiableClass"))
      && Instantiate(classes, "NonInstantiableClass") == Failure(RequiresParameters("NonInstantiableClass", 1))
      && Message(Instantiate(classes, "NonInstantiableClass").error)
        == "Cannot instantiate '" + "NonInstantiableClass" + "': constructor defines " + "1" + " required parameter(s)."
      && Instantiate(classes, "AbstractClass") == Failure(NotInstantiable("AbstractClass"))
      && Instantiate(classes, "NonExistentClass") == Failure(ClassNotFound("NonExistentClass"))
      && Message(Instantiate(classes, "NonExistentClass").error)
        == "Cannot instantiate '" + "NonExistentClass" + "': class not found."
  {
    assert PhpString.DecimalString(1) == "1" by {
      assert PhpString.Digit(1) == '1';
    }
    var c := "NonInstantiableClass";
    assert Message(RequiresParameters(c, 1))
      == "Cannot instantiate '" + c + "': constructor defines " + "1" + " required parameter(s).";
  }

  /** The message for a parameter count carries the count, and reading the digits back gives it. */
  lemma {:induction false} RequiredCountReadable(classes: Classes, name: string)
    requires ClassExists(classes, name) && IsInstantiable(classes[name]) && RequiredParameters(classes[name]) > 0
    ensures var r := Instantiate(classes, name);
      && r.Failure? && r.error.RequiresParameters?
      && PhpString.DecimalValue(PhpString.DecimalString(r.error.count)) == RequiredParameters(classes[name])
  {
    PhpString.DecimalRoundTrip(RequiredParameters(classes[name]));
  }
}

=== FILE: stub_renderer.dfy ===
/**
 * `StubRenderer::render`: read a stub template, substitute placeholders,
 * make sure the destination directory exists, write the result.
 *
 * The file system is a map from path to node. What only the operating
 * system decides (whether a read, a `mkdir` or a write succeeds) is an
 * input, `Io`. The result records the steps taken, so the order of the
 * steps and the point where a failure stops them are part of the model.
 */
module StubRenderer {
  import opened Wrappers
  import PhpString

  type Path = string

  datatype Node = File(content: string, readable: bool) | Dir(readable: bool)

  /** The file system; a path the map does not mention does not exist. */
  type FileSystem = map<Path, Node>

  /**
   * What `mkdir` does: create the directory; fail; or fail while the
   * directory appears anyway (created concurrently by someone else).
   */
  datatype MkdirOutcome = Created | Refused | RefusedButPresent

  /** The outcomes of the calls the operating system decides. */
  datatype Io = Io(readOk: bool, mkdir: MkdirOutcome, writeOk: bool)

  datatype Step =
    | CheckStub         // is_file + is_readable on the stub
    | ReadStub          // file_get_contents
    | Replace           // replacePlaceholders
    | CheckDirectory    // directoryExists(dirname($destination))
    | MakeDirectory     // mkdir(..., 0777, true)
    | RecheckDirectory  // directoryExists again, after a failed mkdir
    | WriteFile         // file_put_contents

  /** Position of each step in the fixed order `render` runs them in. */
  function Rank(s: Step): nat {
    match s
    case CheckStub => 0
    case ReadStub => 1
    case Replace => 2
    case CheckDirectory => 3
    case MakeDirectory => 4
    case RecheckDirectory => 5
    case WriteFile => 6
  }

  datatype RenderError =
    | StubUnavailable(stub: Path)
    | ReadFailed(stub: Path)
    | DirectoryFailed(dir: Path)
    | WriteFailed(destination: Path)

  /** The `RuntimeException` message for each error. */
  function Message(e: RenderError): string {
    match e
    case StubUnavailable(s) => "Stub file '" + s + "' does not exist or is not a readable."
    case ReadFailed(s) => "Failed to read stub file: " + s
    case DirectoryFailed(d) => "Unable to create directory: " + d
    case WriteFailed(d) => "Failed to write to file: " + d
  }

  /** The step at which each error is raised. */
  function FailingStep(e: RenderError): Step {
    match e
    case StubUnavailable(_) => CheckStub
    case ReadFailed(_) => ReadStub
    case DirectoryFailed(_) => RecheckDirectory
    case WriteFailed(_) => WriteFile
  }

  /** The steps taken, the resulting file system, and the error raised, if any. */
  datatype Outcome = Outcome(steps: seq<Step>, fs: FileSystem, error: Option<RenderError>)

  predicate IsReadableFile(fs: FileSystem, p: Path) {
    p in fs && fs[p].File? && fs[p].readable
  }

  /** `directoryExists($path)`: a directory, and readable. */
  predicate DirectoryExists(fs: FileSystem, p: Path) {
    p in fs && fs[p].Dir? && fs[p].readable
  }

  /** `replacePlaceholders($content, $placeholders)`. */
  function ReplacePlaceholders(content: string, placeholders: seq<(string, string)>): string {
    PhpString.StrReplace(content, placeholders)
  }

  /** The directory steps, in the order `ensureDirectoryExists` takes them; each run is a prefix. */
  const DirectoryRun: seq<Step> := [CheckDirectory, MakeDirectory, RecheckDirectory]

  /** Every run of directory steps is ordered, and sits between the replacement and the write. */
  lemma DirectoryRunOrdered(m: nat)
    requires 0 < m <= |DirectoryRun|
    ensures Increasing(DirectoryRun[..m])
    ensures forall k :: 0 <= k < m ==> 3 <= Rank(DirectoryRun[..m][k]) <= 5
  {
  }

  /**
   * `ensureDirectoryExists($dir)`: nothing to do for a readable directory;
   * otherwise `mkdir`, and fail only if it failed and the directory still
   * does not qualify. `mkdir` always fails on a path that already exists.
   */
  function EnsureDirectoryExists(fs: FileSystem, dir: Path, io: Io): (r: Outcome)
    ensures 0 < |r.steps| <= |DirectoryRun| && r.steps == DirectoryRun[..|r.steps|]
    ensures r.error.Some? ==> (r.error.value == DirectoryFailed(dir) && r.fs == fs
      && r.steps[|r.steps| - 1] == FailingStep(r.error.value))
    ensures r.error.None? ==> DirectoryExists(r.fs, dir)
    ensures r.error.None? <==> DirectoryCreatable(fs, dir, io)
    ensures DirectoryExists(fs, dir) ==> r == Outcome([CheckDirectory], fs, None)
    ensures forall p :: p != dir ==> (p in r.fs <==> p in fs) && (p in fs ==> r.fs[p] == fs[p])
  {
    if DirectoryExists(fs, dir) then Outcome([CheckDirectory], fs, None)
    else
      var outcome := if dir in fs then Refused else io.mkdir;
      var fs' := if outcome == Refused then fs else fs[dir := Dir(true)];
      if outcome == Created then Outcome([CheckDirectory, MakeDirectory], fs', None)
      else if !DirectoryExists(fs', dir) then
        Outcome([CheckDirectory, MakeDirectory, RecheckDirectory], fs', Some(DirectoryFailed(dir)))
      else Outcome([CheckDirectory, MakeDirectory, RecheckDirectory], fs', None)
  }

  /**
   * The directory step succeeds: the directory is already there and
   * readable, or it is absent and `mkdir` creates it (or someone else does).
   */
  predicate DirectoryCreatable(fs: FileSystem, dir: Path, io: Io) {
    DirectoryExists(fs, dir) || (dir !in fs && io.mkdir != Refused)
  }

  /** `render($stub, $destination, $placeholders)`. */
  function Render(stub: Path, destination: Path, placeholders: seq<(string, string)>, fs: FileSystem, io: Io): (r: Outcome)
    ensures |r.steps| > 0 && r.steps[0] == CheckStub
    ensures r.error.None? <==> (IsReadableFile(fs, stub) && io.readOk
      && DirectoryCreatable(fs, PhpString.Dirname(destination), io) && io.writeOk)
    ensures r.error.None? ==> forall p :: p != destination && p != PhpString.Dirname(destination) ==>
      (p in r.fs <==> p in fs) && (p in fs ==> r.fs[p] == fs[p])
    ensures r.error.Some? ==> r.steps[|r.steps| - 1] == FailingStep(r.error.value)
    ensures r.error.None? ==> r.steps[|r.steps| - 1] == WriteFile
    ensures r.error.None? ==> (IsReadableFile(fs, stub) && destination in r.fs
      && r.fs[destination] == File(ReplacePlaceholders(fs[stub].content, placeholders), true))
  {
    if !IsReadableFile(fs, stub) then Outcome([CheckStub], fs, Some(StubUnavailable(stub)))
    else if !io.readOk then Outcome([CheckStub, ReadStub], fs, Some(ReadFailed(stub)))
    else
      var content := ReplacePlaceholders(fs[stub].content, placeholders);
      Write([CheckStub, ReadStub, Replace], content, destination,
        EnsureDirectoryExists(fs, PhpString.Dirname(destination), io), io)
  }

  /** The tail of `render`, once the directory step has run: write the content unless that step failed. */
  function Write(done: seq<Step>, content: string, destination: Path, dir: Outcome, io: Io): (r: Outcome)
    requires |done| > 0 && |dir.steps| > 0
    requires dir.error.Some? ==> dir.steps[|dir.steps| - 1] == FailingStep(dir.error.value)
    ensures |r.steps| > |done| && r.steps[..|done|] == done
    ensures r.error.Some? ==> r.steps[|r.steps| - 1] == FailingStep(r.error.value)
    ensures r.error.Some? ==> r.fs == dir.fs
    ensures r.error.None? ==> r.fs == dir.fs[destination := File(content, true)]
    ensures r.error.None? ==> r.steps[|r.steps| - 1] == WriteFile && dir.error.None?
  {
    if dir.error.Some? then Outcome(done + dir.steps, dir.fs, dir.error)
    else if !io.writeOk then Outcome(done + dir.steps + [WriteFile], dir.fs, Some(WriteFailed(destination)))
    else Outcome(done + dir.steps + [WriteFile], dir.fs[destination := File(content, true)], None)
  }

  /**
   * A failed `render` writes nothing: at most the destination's directory
   * has been created, and every other path is as it was.
   */
  lemma FailureWritesNothing(stub: Path, destination: Path, placeholders: seq<(string, string)>, fs: FileSystem, io: Io)
    ensures var r := Render(stub, destination, placeholders, fs, io);
      r.error.Some? ==> forall p :: p != PhpString.Dirname(destination) ==>
        (p in r.fs <==> p in fs) && (p in fs ==> r.fs[p] == fs[p])
  {
  }

  /**
   * A stub that is not a readable file stops `render` at its first step:
   * nothing is read, created or written.
   */
  lemma MissingStubStopsAtOnce(stub: Path, destination: Path, placeholders: seq<(string, string)>, fs: FileSystem, io: Io)
    requires !IsReadableFile(fs, stub)
    ensures var r := Render(stub, destination, placeholders, fs, io);
      && r == Outcome([CheckStub], fs, Some(StubUnavailable(stub)))
      && Message(r.error.value) == "Stub file '" + stub + "' does not exist or is not a readable."
  {
  }

  /**
   * The steps run in the fixed order check, read, replace, directory, write:
   * each step taken comes strictly after the ones before it, so a failure,
   * which ends the list, prevents every later step.
   */
  lemma StepsInOrder(stub: Path, destination: Path, placeholders: seq<(string, string)>, fs: FileSystem, io: Io)
    ensures var steps := Render(stub, destination, placeholders, fs, io).steps;
      Increasing(steps)
  {
    if IsReadableFile(fs, stub) && io.readOk {
      var dir := EnsureDirectoryExists(fs, PhpString.Dirname(destination), io);
      var prefix := [CheckStub, ReadStub, Replace];
      DirectoryRunOrdered(|dir.steps|);
      IncreasingAppend(prefix, dir.steps);
      IncreasingAppend(prefix + dir.steps, [WriteFile]);
    }
  }

  /** Each step of the list comes strictly later in the fixed order than the ones before it. */
  predicate Increasing(steps: seq<Step>) {
    forall i, j :: 0 <= i < j < |steps| ==> Rank(steps[i]) < Rank(steps[j])
  }

  lemma IncreasingAppend(xs: seq<Step>, ys: seq<Step>)
    requires Increasing(xs) && Increasing(ys)
    requires forall i, j :: 0 <= i < |xs| && 0 <= j < |ys| ==> Rank(xs[i]) < Rank(ys[j])
    ensures Increasing(xs + ys)
  {
  }

  /**
   * The whole run when everything goes through and the directory is new:
   * check, read, replace, check the directory, create it, write; the
   * destination holds the replaced content and the directory is readable.
   */
  lemma SuccessfulRenderSteps(stub: Path, destination: Path, placeholders: seq<(string, string)>, fs: FileSystem, io: Io)
    requires IsReadableFile(fs, stub) && io.readOk && io.writeOk
    requires PhpString.Dirname(destination) !in fs && io.mkdir == Created
    ensures var r := Render(stub, destination, placeholders, fs, io);
      && r.error.None?
      && r.steps == [CheckStub, ReadStub, Replace, CheckDirectory, MakeDirectory, WriteFile]
      && r.fs == fs[PhpString.Dirname(destination) := Dir(true)]
                   [destination := File(ReplacePlaceholders(fs[stub].content, placeholders), true)]
  {
  }

  /** An existing readable destination directory is used as is: no `mkdir`. */
  lemma ExistingDirectoryNotRecreated(stub: Path, destination: Path, placeholders: seq<(string, string)>, fs: FileSystem, io: Io)
    requires DirectoryExists(fs, PhpString.Dirname(destination))
    ensures MakeDirectory !in Render(stub, destination, placeholders, fs, io).steps
  {
  }

  /**
   * When `mkdir` fails and the directory still does not qualify, `render`
   * raises "Unable to create directory" and writes nothing.
   */
  lemma DirectoryFailureWritesNothing(stub: Path, destination: Path, placeholders: seq<(string, string)>, fs: FileSystem, io: Io)
    requires IsReadableFile(fs, stub) && io.readOk
    requires !DirectoryExists(fs, PhpString.Dirname(destination))
    requires io.mkdir == Refused || PhpString.Dirname(destination) in fs
    ensures var r := Render(stub, destination, placeholders, fs, io);
      && r.error == Some(DirectoryFailed(PhpString.Dirname(destination)))
      && r.fs == fs
      && WriteFile !in r.steps
  {
  }

  /** A failed write raises "Failed to write to file: <destination>" and leaves the destination as it was. */
  lemma WriteFailureReported(stub: Path, destination: Path, placeholders: seq<(string, string)>, fs: FileSystem, io: Io)
    requires IsReadableFile(fs, stub) && io.readOk && !io.writeOk
    requires DirectoryExists(fs, PhpString.Dirname(destination))
    ensures var r := Render(stub, destination, placeholders, fs, io);
      && r.error == Some(WriteFailed(destination))
      && Message(r.error.value) == "Failed to write to file: " + destination
      && r.fs == fs
  {
  }

  /** With no placeholders the stub is copied verbatim. */
  lemma EmptyPlaceholdersCopyVerbatim(stub: Path, destination: Path, fs: FileSystem, io: Io)
    ensures var r := Render(stub, destination, [], fs, io);
      r.error.None? ==> r.fs[destination] == File(fs[stub].content, true)
  {
  }

  /** A placeholder the content does not contain leaves the content unchanged. */
  lemma AbsentPlaceholderIsNoOp(content: string, key: string, value: string)
    requires !PhpString.Occurs(content, key)
    ensures ReplacePlaceholders(content, [(key, value)]) == content
  {
    assert [(key, value)][1..] == [];
    assert PhpString.StrReplace(content, [(key, value)])
      == PhpString.StrReplace(PhpString.ReplaceAll(content, key, value), []);
    PhpString.ReplaceAllAbsent(content, key, value);
  }
}

=== FILE: wrappers.dfy ===
/** Failure-compatible result types shared by every module of the model. */
module Wrappers {

  /** A value that may be absent. */
  datatype Option<+T> = None | Some(value: T)

  /** The outcome of an operation that either succeeds with a value or raises an error. */
  datatype Result<+R, +E> = Success(value: R) | Failure(error: E) {
    predicate IsFailure() {
      Failure?
    }

    function PropagateFailure<U>(): Result<U, E>
      requires Failure?
    {
      Failure(error)
    }

    function Extract(): R
      requires Success?
    {
      value
    }
  }
}
